=== FILE: README.md ===
# Library transaction ledger, in Dafny

This project models the transaction core of a small Flask library
application. Users borrow books for a fee, buy them, and fill a shopping
cart that is paid by card, Alipay or WePay. Admins manage accounts. The
catalog is filled from OpenLibrary and Project Gutenberg.

The MySQL database is one immutable value, `Schema.Db`. Each table is a
sequence of rows, and each table's AUTO_INCREMENT is one counter in
`Schema.Counters`. Every request handler is a pure function from the
database, plus the session and form values it reads, to an outcome and the
new database. Every refusal returns the database unchanged. The one
exception is the OpenLibrary import, which commits each insert: a work
without a title ends the import, and the rows inserted before it stay
(`Catalog.ImportOpenLibraryState`).

Conventions:

- Money is in whole cents. $2.00 a day is `CentsPerDay = 200`.
- Time is in seconds. `SecondsPerDay = 86400`.
- A nullable column is an `Option`.
- A request that raises inside a `try` and is rolled back is its own
  outcome: `ReturnFailed`, `PaymentFailed`, `StageFailed`.

`Schema.Wf` is the integrity invariant. Primary keys are unique and below
their table's counter. The cart holds at most one row per (user, book),
with a positive quantity. Each writing handler has a lemma that it
preserves the invariant. For the OpenLibrary import this includes a run
that stops at an untitled work (`Catalog.ImportOpenLibraryPreservesWf`).

Two borrow paths exist: the timed borrow refuses a book the user holds
unreturned, and the direct borrow refuses one the user holds with no return
date. A direct-borrow record is unreturned, so it blocks a later timed
borrow (`Direct.DirectBorrowBlocksTimed`). A timed-borrow record has a
return date, so it does not block a later direct borrow: a timed borrow
followed by a direct borrow leaves the user with two unreturned records of
one book (`Direct.TimedThenDirectTwoUnreturned`).

Modules:

- `Tables`: generic table operations (`Delete`, `Update`, `Exists`,
  `FirstMatch`) and key lemmas.
- `Schema`: rows, the database and the invariant.
- `Lending`: the timed borrow and the return with its early-return refund.
- `Purchasing`: the one-time purchase.
- `Payments`: payment-form validation.
- `Cart`: the cart, checkout and cart payment.
- `Direct`: the single-book direct checkout and its payment.
- `Admin`: adding, deleting and toggling accounts.
- `Catalog`: the catalog import upserts.
- `Uploads`: the cover filename filter.
- `Inventory`: the separate quantity ledger of `books.py`.
- `BookDetails`: the Google Books mapping.
- `Strings` and `Wrappers`: helpers.

## Model

| member | source | states |
|---|---|---|
| Uploads.AllowedFile | app.py:47-48 | A name is accepted iff it has a dot and the text after the last dot, lower-cased, is jpg, jpeg or png |
| Uploads.AllowedFileByExtension | app.py:47-48 | Only the final extension decides, whatever dots the stem holds and in any letter case |
| Uploads.NoDotRefused | app.py:47-48 | A name with no dot is refused |
| Uploads.UpperCaseExtensionAccepted | app.py:47-48 | Any name ending in ".JPG" is accepted: the comparison ignores case |
| Uploads.OtherExtensionRefused | app.py:47-48 | Any name ending in ".gif" is refused |
| Catalog.FromOpenLibrary | app.py:61-83 | A work without a title yields nothing (the lookup raises). Otherwise the title is copied and the description defaults to "". Author names are joined with ", ", each defaulting to "Unknown". There is no cover exactly when the cover id is missing or 0, and otherwise the cover is the medium cover URL of that id. The preview is the OpenLibrary URL of the work key, with "None" for a missing key |
| Catalog.FromGutenberg | app.py:110-114 | Title defaults to "". Author names are joined with ", ", each defaulting to "". The description is the fixed Project Gutenberg text. The cover and preview are the jpeg and html links as given |
| Catalog.FindTitled | app.py:61-63 | Finds a row iff one exists with that title and source; the row found has that title and source |
| Catalog.Upsert | app.py:59-92 | An existing (title, source) row is returned unchanged. Otherwise exactly one row is appended with the next id and no price |
| Catalog.UpsertAll | app.py:59-92 | One returned book per record, with its title and source, and each returned row is in the catalog afterwards. Existing rows are kept as a prefix, and only the books table changes |
| Catalog.ImportOpenLibrary | app.py:59-98 | With every title present, one book per work. A work without a title makes the result empty, and only books change |
| Catalog.TitledPrefix | app.py:58-61 | The length of the run of titled works before the first untitled one |
| Catalog.MapWorks | app.py:58-83 | The mapped record of each titled work, in order |
| Catalog.ImportOpenLibraryState | app.py:58-98 | The import leaves the catalog the upsert loop leaves over the works before the first untitled one: those inserts were committed |
| Catalog.ImportOpenLibraryIsUpsertAll | app.py:58-94 | With every title present, the import is the upsert loop over the mapped works, result included |
| Catalog.ImportOpenLibraryKeepsRows | app.py:58-98 | Earlier rows stay as a prefix, and every work before the first untitled one is in the catalog under source openlibrary |
| Catalog.ImportOpenLibraryPreservesWf | app.py:58-98 | The import keeps the invariant and per-source title uniqueness, including a run cut short by an untitled work |
| Catalog.ImportOpenLibraryTwice | app.py:58-94 | Importing the same titled works twice: the second import adds no row |
| Catalog.GutenbergRecords | app.py:109-114 | The mapped records of the first four results, in order |
| Catalog.ImportGutenberg | app.py:109-140 | At most the first four results are imported, each under its own title with source gutenberg and present in the catalog afterwards. Earlier rows stay as a prefix, and only books change |
| Catalog.ImportGutenbergSound | app.py:109-140 | The Gutenberg import keeps the invariant and per-source title uniqueness, and repeating it adds no row |
| Catalog.UpsertAllKeepsTitlesDistinct | app.py:116-135 | Within one source, upserting never creates two rows with the same title. Admin-entered rows may share titles and are not constrained |
| Catalog.UpsertAllStores | app.py:116-135 | After an import, every imported title is in the catalog under its source |
| Catalog.ImportTwiceAddsNothing | app.py:116-135 | A second import of the same records leaves the database unchanged |
| Catalog.UpsertAllPreservesWf | app.py:65-87 | Imports keep book keys unique and below the counter |
| Lending.BorrowBook | app.py:454-479 | Outside 1..30 days: refused. With an unreturned record of this book: refused. Otherwise one record: cost 200 × days cents, return date days × 86400 s ahead, not returned. Refusals change nothing |
| Lending.ExactlyOneUnreturnedAfterBorrow | app.py:461-479 | After a borrow the user holds exactly one unreturned record of that book |
| Lending.SecondBorrowRefused | app.py:461-469 | A second borrow before returning is refused with no change, whatever the day count |
| Lending.BorrowPreservesWf | app.py:475-479 | The borrow keeps the integrity invariant |
| Lending.RefundDays | app.py:1018-1019 | Before the return date: the floor of the whole days left. On or after it: 0 |
| Lending.RecordRefund | app.py:1020-1038 | A positive day count appends one refund row of 200 × days cents and lowers the cost of the record with that id by the same amount (a NULL cost stays NULL). Otherwise nothing changes. Only borrows, refunds and the refund counter ever change |
| Lending.ReturnBook | app.py:997-1054 | Not found iff no record has this id, is the requester's (or the requester is an admin) and has an existing book. Non-success leaves the database as it was. On success the refunded day count is `RefundDays` of the designated record's return date, and the refund row exists iff that count is positive. Borrow records with another id are unchanged, and only borrows, refunds and the refund counter change |
| Lending.AlreadyReturnedNoChange | app.py:1011-1012 | A visible record already marked returned is refused as already returned, and nothing changes |
| Lending.UndatedReturnFails | app.py:1011-1053 | An open record with no return date fails on the date comparison and is rolled back: nothing changes |
| Lending.EarlyReturnRefunds | app.py:1014-1047 | Returning with d ≥ 1 whole days left: one refund of 200 × d cents, cost lowered by it, record marked returned at now |
| Lending.LateReturnNoRefund | app.py:1014-1047 | A return with no whole day left: no refund, cost unchanged, record marked returned |
| Lending.ForeignRecordNotFound | app.py:999-1009 | A non-admin cannot return someone else's record: not found, nothing changes |
| Lending.ReturnMarksRecord | app.py:1011-1047 | Returning a visible record that is open and has a return date succeeds. The record is marked returned and keeps its id, user and book |
| Lending.ReturnTwice | app.py:1011-1012 | After a first return of an open dated record, a second return reports already returned and changes nothing |
| Lending.RefundWithinCost | app.py:1018-1021 | For a record created by the timed borrow, the refunded days never exceed the days paid for |
| Lending.BorrowThenReturnCostNonNegative | app.py:1033-1038 | A timed borrow returned no earlier than it was taken keeps a non-negative total cost |
| Lending.ReturnPreservesWf | app.py:1024-1047 | The return keeps the integrity invariant |
| Purchasing.BuyBook | app.py:495-513 | Missing book: not found. Already purchased: refused. Otherwise one purchase whose price equals the book's price at that moment. Refusals change nothing |
| Purchasing.BuyTwice | app.py:502-507 | The second purchase of the same book is refused and adds no record |
| Purchasing.BuyPreservesWf | app.py:509-513 | The purchase keeps the integrity invariant |
| Payments.ParseMethod | app.py:1214-1233 | A parsed method is the one named by the form value |
| Payments.ParseMethodName | app.py:1214-1233 | Each method is read back from its own name and from no other string |
| Payments.CheckPayment | app.py:1376-1396 | No method iff the value is empty. Unknown iff it names none of card, alipay or wepay. Valid iff the method's own field (card number or phone) is non-empty, and the details are that field |
| Cart.AddToCart | app.py:1069-1093 | Missing book: nothing changes. A book already in the cart: its row's quantity grows by one. Otherwise a new row of quantity 1. Only the cart changes |
| Cart.AddExisting | app.py:1076-1087 | Under the invariant, adding a book already in the cart raises exactly its one row's quantity by 1 |
| Cart.AddTwice | app.py:1076-1093 | Adding a book twice gives one row of quantity 2, not two rows |
| Cart.AddPreservesWf | app.py:1076-1093 | One row per (user, book) with positive quantity survives every add |
| Cart.RemoveFromCart | app.py:1127-1128 | Exactly the rows matching the item id and owned by the requester are removed. All others stay |
| Cart.RemoveForeignItem | app.py:1127-1128 | Another user's item is not removed |
| Cart.RemovePreservesWf | app.py:1127-1128 | Removal keeps the invariant |
| Cart.ClampQuantity | app.py:1140-1142 | The stored quantity is at least 1. It equals the request when that is at least 1 |
| Cart.UpdateCart | app.py:1140-1149 | Only the requester's row with that id takes the clamped quantity. Every other row is unchanged |
| Cart.UpdatePreservesWf | app.py:1140-1149 | The update keeps the invariant, including positive quantities |
| Cart.LinesOf | app.py:1163-1169 | The cart join holds exactly the user's rows whose book exists, each paired with its book |
| Cart.SubtotalNonNegative | app.py:1175-1176 | With quantities at least 1, the subtotal is never negative |
| Cart.CheckoutView | app.py:1162-1182 | An empty join sends the user back to the cart. A summary is shown iff the join is non-empty and every book is priced, and it shows the joined lines and their price × quantity total |
| Cart.OrderItemsFor | app.py:1243-1247 | One order item per line with its book, quantity and unit price |
| Cart.PurchasesFor | app.py:1249-1253 | One purchase per line at the line's price |
| Cart.ItemsTotalIsSubtotal | app.py:1211-1247 | The order items' price × quantity sum equals the cart subtotal |
| Cart.ProcessPayment | app.py:1189-1271 | Each failure (no method, empty cart, missing details, unknown method, unpriced book) changes nothing. Paid iff the method is chosen, the cart is non-empty and priced, and the form is valid. On success: one order for the subtotal, one order item and one purchase per line, the user's cart emptied, other carts kept |
| Cart.ChargeMatchesCheckout | app.py:1175-1211 | The amount charged is the subtotal the checkout page showed, and the order items add up to it |
| Cart.UnknownMethodRollsBack | app.py:1228-1271 | An unknown method pays nothing and writes nothing |
| Cart.PaymentPreservesWf | app.py:1236-1257 | The payment keeps the invariant |
| Direct.DirectCheckout | app.py:1281-1320 | An action other than buy or borrow is refused, and so is a missing book. Buy stages the book's price and title, or fails on a NULL price. Borrow is refused while an undated borrow record exists, else stages. The database is never written |
| Direct.ProcessDirectPayment | app.py:1361-1448 | Nothing staged or an invalid form changes nothing. Paid iff something is staged and the form is valid. Success writes one order and clears both staged entries. Only orders, order items, purchases, borrows and their counters change |
| Direct.DirectPurchaseWrites | app.py:1398-1419 | A direct purchase writes a purchase order for the staged price, one order item of quantity 1 and one purchase |
| Direct.DirectBorrowWrites | app.py:1423-1440 | A direct borrow costs 200 cents for any length and defaults to 14 days. It records a due date but no return date, linked to its order |
| Direct.DirectBorrowBlocksRestage | app.py:1306-1313 | After a direct borrow, the same book cannot be staged for borrowing again |
| Direct.DirectBorrowBlocksTimed | app.py:461-469 | After a paid direct borrow, a timed borrow of the same book is refused as already borrowed and changes nothing: the direct record is unreturned |
| Direct.TimedBorrowDoesNotBlockDirect | app.py:1307-1313 | An unreturned timed borrow (which has a return date) does not stop a direct borrow of the same book |
| Direct.DirectBorrowCannotBeReturned | app.py:1014-1018 | Returning a directly borrowed book fails on the missing return date and changes nothing |
| Direct.TimedThenDirectTwoUnreturned | app.py:1306-1313 | After a timed borrow, a direct borrow of the same book is still staged and paid, leaving two unreturned records of it |
| Direct.DirectPaymentPreservesWf | app.py:1398-1440 | The direct payment keeps the invariant |
| Admin.FindUser | app.py:725-726 | Finds a user iff one has that id, and the user found has it |
| Admin.AddUser | app.py:669-693 | Non-admins are denied. A taken username or email is refused. Otherwise one active account with the hashed password and the next id. Refusals change nothing |
| Admin.AddKeepsAccountsDistinct | app.py:676-686 | Adding never gives two accounts the same username or email |
| Admin.AddUserPreservesWf | app.py:689-693 | Adding a user keeps the invariant |
| Admin.DeleteUser | app.py:724-734 | Non-admins are denied. An admin account is never deleted. Every other admin request reports success, and exactly the rows with that id go; a missing id deletes nothing |
| Admin.AdminsSurviveDelete | app.py:724-729 | No delete request removes an admin account |
| Admin.DeletePreservesWf | app.py:731-733 | Deletion keeps the invariant |
| Admin.ToggleUser | app.py:774-791 | A missing user: not found, nothing changes. Otherwise the active flag of that account alone is flipped and one log entry naming the new state is appended |
| Admin.ToggleTwiceRestores | app.py:778-787 | Toggling twice restores every account and leaves two log entries |
| Admin.TogglePreservesWf | app.py:778-787 | The toggle keeps the invariant |
| Inventory.FindStock | books.py:70-71 | Finds a row iff one has that id |
| Inventory.BorrowBook | books.py:67-99 | No copy: refused. An active borrow of this book: refused. Otherwise one active 14-day borrow transaction. Refusals change nothing |
| Inventory.BorrowTakesOneCopy | books.py:94-97 | A borrow takes exactly one copy of that book and leaves every other count alone |
| Inventory.ReturnBook | books.py:101-127 | With no active borrow, nothing changes. Otherwise success, with no transaction added |
| Inventory.ReturnRestocksOneCopy | books.py:114-125 | A return completes the user's first active loan of the book and puts back exactly one copy |
| Inventory.BorrowThenReturnRestores | books.py:67-127 | Borrowing then returning restores every stock count |
| Inventory.BuyBook | books.py:129-148 | No copy: refused. Otherwise one buy transaction |
| Inventory.BuyTakesOneCopy | books.py:143-146 | A buy takes exactly one copy of that book |
| Inventory.BuyAgain | books.py:129-148 | With no duplicate check, a second purchase of the same book succeeds while copies remain |
| Inventory.StepKeepsInvariant | books.py:67-148 | Each operation keeps the keys and non-negative stock |
| Inventory.StockNeverNegative | books.py:73-74 | Across any sequence of borrows, returns and buys, no stock count goes negative |
| Inventory.StepKeepsLoansUnique | books.py:67-148 | Each operation keeps at most one open loan per user and book |
| Inventory.LoansStayUnique | books.py:76-85 | Across any sequence of operations, no user holds two open loans of the same book |
| Inventory.ReturnClosesTheLoan | books.py:101-127 | With one open loan per user and book, a return leaves no open loan of that book, and a second return is refused |
| Inventory.AvailableBooks | books.py:57-65 | Lists exactly the books with at least one copy |
| Inventory.AvailableIffInStock | books.py:57-65 | A book is listed iff it has a copy |
| BookDetails.GetBookDetails | books.py:25-36 | Each of the six fields takes the volume's value or its default. An empty identifier list fails |
| BookDetails.MissingInfoGivesDefaults | books.py:27-35 | A volume without volume info maps to every default |
| BookDetails.DetailsRoundTrip | books.py:25-36 | A volume carrying every field gives back exactly those fields |
| BookDetails.MissingFieldGetsDefault | books.py:25-36 | Dropping any one field from a full volume changes exactly that field of the result, to its default |
| BookDetails.AuthorsJoined | books.py:31 | Authors are joined with ", " in order. An empty list gives "" rather than the default |

## Left out

- Flask itself is out: routing, redirects, flash messages, templates and the `loggedin` guards. Each handler takes the session's user id (and the admin flag) as a parameter.
- The MySQL server is out. A table is a sequence and AUTO_INCREMENT is a counter. Row order is insertion order, so a query without ORDER BY is modelled in that order.
- The HTTP fetches of OpenLibrary, Gutendex and Google Books are out. Their decoded JSON is an input, and a network failure is not modelled.
- File upload storage and `secure_filename` are out. Only the extension filter is modelled.
- SHA-256 password hashing is an uninterpreted constructor, `Sha256Of`.
- Floating-point money is exact integer cents. Float rounding is not modelled.
- Clocks are a `now` parameter, and `NOW()` in SQL is the same value as the handler's clock.
- Concurrency and transaction isolation are out. Each request runs alone.
- Form parsing is out: `int()` failures, a non-numeric `days` or `quantity`, a missing `username` key. The parsed value is the input.
- The GET pages (`borrow`, `return_book_route`, `buy` at app.py:409-446, dashboards, listings, search) are out. They only read.
- The admin book pages, make-admin, edit-user and categories are out. So are `setup_db.py`, `populate_books.py` and `create_admin.py`.
- Admin log entries are modelled only for the status toggle.
- Cart payment orders leave `order_type` unset (`None`), as the insert does. The schema default is not part of this model.
- New accounts are created active. The `is_active` default lives in the database setup, which is not part of this model.
- The table schema (`schema.sql`) is not part of this model, so the column defaults and constraints the handlers rely on are assumed:
  - `borrowed_books.returned` starts FALSE and `borrow_date` is the insert time.
  - `transactions.status` starts `active`.
  - Imported books have a NULL price.
  - `purchase_date` and `order_date` are the insert time.
  - `books.quantity` is never NULL in the `books.py` ledger, which would otherwise raise on the comparison.
  - No foreign key restricts or cascades a user deletion, so deleting a user changes no other table.
- JSON `null` values in the fetched data are treated like absent keys.
- SQL string equality is exact equality here. MySQL's default collations ignore letter case and trailing spaces, so the title, username and email lookups of the source match more rows than the model's.
- Lending.BorrowBook: the book's existence is not checked, as in the route. A record may name a missing book.
- Direct.ProcessDirectPayment: the source commits each insert separately. The model has no failing insert, so it claims no atomicity on that path.
- Purchasing.BuyBook: with a NULL price the route commits the purchase and then fails while formatting the success message. The model reports `Bought`, which has the same stored state, and does not model the error page.
- Direct.ProcessDirectPayment: the day count from the form is not range-checked, as in the source.
- Direct.ProcessDirectPayment: when both a purchase and a borrow are staged, only the purchase is paid. Clearing the session drops the staged borrow, as in the source.
- Catalog.ImportOpenLibrary: only a missing title is modelled as raising. A failed insert or a malformed author entry is not.
- Inventory.ReturnBook: the contract states the outcome and table sizes. The exact row changes are stated by Inventory.ReturnRestocksOneCopy under unique book ids.

=== FILE: admin.dfy ===
/** The account rules of the admin console in app.py: adding a user,
    deleting a user, and toggling a user's active flag. */
module Admin {
  import opened Wrappers
  import opened Tables
  import opened Schema

  /** The session of the requester, as `admin_required` reads it. */
  datatype Actor = Actor(userId: nat, loggedIn: bool, isAdmin: bool)

  predicate AdminSession(a: Actor) {
    a.loggedIn && a.isAdmin
  }

  datatype AdminOutcome =
    | AccessDenied
    | UsernameTaken
    | EmailTaken
    | UserAdded(id: nat)
    | CannotDeleteAdmin
    | UserDeleted
    | UserNotFound
    | Toggled(active: bool)

  function UserHasId(id: nat): User -> bool {
    (u: User) => u.id == id
  }

  /** `SELECT ... FROM users WHERE id = %s` followed by `fetchone()`. */
  function FindUser(db: Db, id: nat): (r: Option<User>)
    ensures r.Some? <==> exists i :: 0 <= i < |db.users| && db.users[i].id == id
    ensures r.Some? ==> r.value in db.users && r.value.id == id
  {
    var k := FirstMatch(db.users, UserHasId(id));
    if k == -1 then None else Some(db.users[k])
  }

  predicate UsernameInUse(db: Db, name: string) {
    exists i :: 0 <= i < |db.users| && db.users[i].username == name
  }

  predicate EmailInUse(db: Db, email: string) {
    exists i :: 0 <= i < |db.users| && db.users[i].email == email
  }

  /** No two accounts share a username or an email. */
  predicate AccountsDistinct(users: seq<User>) {
    forall i, j :: 0 <= i < j < |users| ==>
      users[i].username != users[j].username && users[i].email != users[j].email
  }

  /** `POST /admin/users/add`. The account is created active; the
      password is stored as its hash. */
  function AddUser(db: Db, actor: Actor, username: string, email: string, password: string, makeAdmin: bool)
    : (r: (AdminOutcome, Db))
    ensures !r.0.UserAdded? ==> r.1 == db
    ensures !AdminSession(actor) ==> r.0 == AccessDenied
    ensures AdminSession(actor) && UsernameInUse(db, username) ==> r.0 == UsernameTaken
    ensures AdminSession(actor) && !UsernameInUse(db, username) && EmailInUse(db, email) ==> r.0 == EmailTaken
    ensures r.0.UserAdded? <==> AdminSession(actor) && !UsernameInUse(db, username) && !EmailInUse(db, email)
    ensures r.0.UserAdded? ==>
      && r.0.id == db.next.user
      && r.1 == db.(users := db.users + [User(db.next.user, username, email, Sha256Of(password), makeAdmin, true)],
                    next := db.next.(user := db.next.user + 1))
  {
    if !AdminSession(actor) then (AccessDenied, db)
    else if UsernameInUse(db, username) then (UsernameTaken, db)
    else if EmailInUse(db, email) then (EmailTaken, db)
    else
      (UserAdded(db.next.user),
       db.(users := db.users + [User(db.next.user, username, email, Sha256Of(password), makeAdmin, true)],
           next := db.next.(user := db.next.user + 1)))
  }

  /** Adding a user never gives two accounts the same username or email. */
  lemma AddKeepsAccountsDistinct(db: Db, actor: Actor, username: string, email: string, password: string, makeAdmin: bool)
    requires AccountsDistinct(db.users)
    ensures AccountsDistinct(AddUser(db, actor, username, email, password, makeAdmin).1.users)
  {
    var r := AddUser(db, actor, username, email, password, makeAdmin);
    if r.0.UserAdded? {
      var us := r.1.users;
      forall i, j | 0 <= i < j < |us| ensures us[i].username != us[j].username && us[i].email != us[j].email {
        if j == |db.users| {
          assert us[i] == db.users[i];
        }
      }
    }
  }

  lemma AddUserPreservesWf(db: Db, actor: Actor, username: string, email: string, password: string, makeAdmin: bool)
    requires Wf(db)
    ensures Wf(AddUser(db, actor, username, email, password, makeAdmin).1)
  {
    InsertKeyed(db.users, UserKey, db.next.user, User(db.next.user, username, email, Sha256Of(password), makeAdmin, true));
  }

  /** `POST /admin/users/delete/<user_id>`: an admin account is never
      deleted; deleting a missing id deletes nothing and still reports
      success. */
  function DeleteUser(db: Db, actor: Actor, id: nat): (r: (AdminOutcome, Db))
    ensures !AdminSession(actor) ==> r == (AccessDenied, db)
    ensures AdminSession(actor) && FindUser(db, id).Some? && FindUser(db, id).value.isAdmin ==> r == (CannotDeleteAdmin, db)
    ensures AdminSession(actor) && !(FindUser(db, id).Some? && FindUser(db, id).value.isAdmin) ==> r.0 == UserDeleted
    ensures r.0 == UserDeleted ==> r.1 == db.(users := r.1.users)
    ensures r.0 == UserDeleted ==>
              && (forall i :: 0 <= i < |r.1.users| ==> r.1.users[i] in db.users && r.1.users[i].id != id)
              && (forall i :: 0 <= i < |db.users| && db.users[i].id != id ==> db.users[i] in r.1.users)
    ensures r.0 == UserDeleted || r.1 == db
  {
    if !AdminSession(actor) then (AccessDenied, db)
    else
      match FindUser(db, id)
      case Some(u) =>
        if u.isAdmin then (CannotDeleteAdmin, db)
        else (UserDeleted, db.(users := Delete(db.users, UserHasId(id))))
      case None => (UserDeleted, db.(users := Delete(db.users, UserHasId(id))))
  }

  /** No delete request removes an admin account. */
  lemma AdminsSurviveDelete(db: Db, actor: Actor, id: nat, k: int)
    requires Wf(db) && 0 <= k < |db.users| && db.users[k].isAdmin
    ensures db.users[k] in DeleteUser(db, actor, id).1.users
  {
  }

  lemma DeletePreservesWf(db: Db, actor: Actor, id: nat)
    requires Wf(db)
    ensures Wf(DeleteUser(db, actor, id).1)
  {
    DeleteKeyed(db.users, UserKey, db.next.user, UserHasId(id));
  }

  function Flip(): User -> User {
    (u: User) => u.(isActive := !u.isActive)
  }

  /** The log text: "Activated user: <name>" or "Deactivated user: <name>". */
  function ToggleDetails(active: bool, username: string): string {
    (if active then "Activated" else "Deactivated") + " user: " + username
  }

  /** `GET /admin/toggle_user_status/<user_id>`: flips the account's active
      flag and appends one admin-log entry naming the new state. */
  function ToggleUser(db: Db, actor: Actor, id: nat): (r: (AdminOutcome, Db))
    ensures !AdminSession(actor) ==> r == (AccessDenied, db)
    ensures AdminSession(actor) && FindUser(db, id).None? ==> r == (UserNotFound, db)
    ensures r.0.Toggled? <==> AdminSession(actor) && FindUser(db, id).Some?
    ensures r.0.Toggled? ==>
      var u := FindUser(db, id).value;
      && r.0.active == !u.isActive
      && r.1.logs == db.logs + [AdminLog(db.next.log, actor.userId, ToggleUserStatus, id, ToggleDetails(!u.isActive, u.username))]
      && |r.1.users| == |db.users|
      && (forall i :: 0 <= i < |db.users| ==>
            r.1.users[i] == if db.users[i].id == id then db.users[i].(isActive := !db.users[i].isActive) else db.users[i])
      && r.1 == db.(users := r.1.users, logs := r.1.logs, next := db.next.(log := db.next.log + 1))
  {
    if !AdminSession(actor) then (AccessDenied, db)
    else
      match FindUser(db, id)
      case None => (UserNotFound, db)
      case Some(u) =>
        (Toggled(!u.isActive),
         db.(users := Update(db.users, UserHasId(id), Flip()),
             logs := db.logs + [AdminLog(db.next.log, actor.userId, ToggleUserStatus, id, ToggleDetails(!u.isActive, u.username))],
             next := db.next.(log := db.next.log + 1)))
  }

  /** Flipping the same accounts twice restores them. */
  lemma FlipTwice(users: seq<User>, id: nat)
    ensures Update(Update(users, UserHasId(id), Flip()), UserHasId(id), Flip()) == users
  {
    var once := Update(users, UserHasId(id), Flip());
    var twice := Update(once, UserHasId(id), Flip());
    forall i | 0 <= i < |users| ensures twice[i] == users[i] {
      assert once[i].id == users[i].id;
    }
  }

  /** Toggling twice restores every account and leaves two log entries. */
  lemma ToggleTwiceRestores(db: Db, actor: Actor, id: nat)
    requires AdminSession(actor) && FindUser(db, id).Some?
    ensures var db2 := ToggleUser(ToggleUser(db, actor, id).1, actor, id).1;
            db2.users == db.users && |db2.logs| == |db.logs| + 2
  {
    var db1 := ToggleUser(db, actor, id).1;
    var k := FirstMatch(db.users, UserHasId(id));
    assert db1.users[k].id == id;
    assert FindUser(db1, id).Some?;
    FlipTwice(db.users, id);
  }

  lemma TogglePreservesWf(db: Db, actor: Actor, id: nat)
    requires Wf(db)
    ensures Wf(ToggleUser(db, actor, id).1)
  {
    var r := ToggleUser(db, actor, id);
    if r.0.Toggled? {
      var u := FindUser(db, id).value;
      UpdateKeyed(db.users, UserKey, db.next.user, UserHasId(id), Flip());
      InsertKeyed(db.logs, LogKey, db.next.log, AdminLog(db.next.log, actor.userId, ToggleUserStatus, id, ToggleDetails(!u.isActive, u.username)));
    }
  }
}

=== FILE: bookdetails.dfy ===
/** `get_book_details` of books.py: a Google Books volume mapped to the
    six fields the search results show, each with its default. A key that
    is absent from the JSON object is `None`. */
module BookDetails {
  import opened Wrappers
  import opened Strings

  datatype Identifier = Identifier(identifier: Option<string>)

  datatype ImageLinks = ImageLinks(thumbnail: Option<string>)

  datatype VolumeInfo = VolumeInfo(
    title: Option<string>,
    authors: Option<seq<string>>,
    industryIdentifiers: Option<seq<Identifier>>,
    description: Option<string>,
    categories: Option<seq<string>>,
    imageLinks: Option<ImageLinks>)

  datatype Volume = Volume(volumeInfo: Option<VolumeInfo>)

  datatype Details = Details(
    title: string, author: string, isbn: string, description: string, category: string, thumbnail: string)

  /** The object a missing `volumeInfo` defaults to: `{}`. */
  const EmptyInfo: VolumeInfo := VolumeInfo(None, None, None, None, None, None)

  /** The mapping. It is `None` when `industryIdentifiers` is an empty
      list: indexing its first element raises. */
  function GetBookDetails(v: Volume): (r: Option<Details>)
    ensures var info := v.volumeInfo.GetOr(EmptyInfo);
            r.None? <==> info.industryIdentifiers == Some([])
    ensures var info := v.volumeInfo.GetOr(EmptyInfo);
            r.Some? ==>
              && r.value.title == (if info.title.Some? then info.title.value else "Unknown Title")
              && r.value.author == (if info.authors.Some? then Join(info.authors.value, ", ") else "Unknown Author")
              && r.value.category == (if info.categories.Some? then Join(info.categories.value, ", ") else "Uncategorized")
              && r.value.description == (if info.description.Some? then info.description.value else "")
              && r.value.thumbnail == (if info.imageLinks.Some? && info.imageLinks.value.thumbnail.Some?
                                       then info.imageLinks.value.thumbnail.value else "")
              && r.value.isbn == (if info.industryIdentifiers.Some? && info.industryIdentifiers.value[0].identifier.Some?
                                  then info.industryIdentifiers.value[0].identifier.value else "")
  {
    var info := v.volumeInfo.GetOr(EmptyInfo);
    var ids := info.industryIdentifiers.GetOr([Identifier(None)]);
    if ids == [] then None
    else
      Some(Details(
        info.title.GetOr("Unknown Title"),
        Join(info.authors.GetOr(["Unknown Author"]), ", "),
        ids[0].identifier.GetOr(""),
        info.description.GetOr(""),
        Join(info.categories.GetOr(["Uncategorized"]), ", "),
        info.imageLinks.GetOr(ImageLinks(None)).thumbnail.GetOr("")))
  }

  /** A volume with no `volumeInfo` maps to the defaults of every field. */
  lemma MissingInfoGivesDefaults()
    ensures GetBookDetails(Volume(None))
         == Some(Details("Unknown Title", "Unknown Author", "", "", "Uncategorized", ""))
  {
  }

  /** Authors are listed in order, separated by ", "; an empty list gives
      the empty string rather than the default. */
  lemma AuthorsJoined(info: VolumeInfo, a: string, b: string)
    requires info.industryIdentifiers != Some([])
    ensures var withTwo := GetBookDetails(Volume(Some(info.(authors := Some([a, b])))));
            withTwo.Some? && withTwo.value.author == a + ", " + b
    ensures var withNone := GetBookDetails(Volume(Some(info.(authors := Some([])))));
            withNone.Some? && withNone.value.author == ""
  {
    assert Join([a, b], ", ") == a + ", " + Join([b], ", ");
  }

  /** The volume a search result would carry for the given details: every
      field present, each list holding exactly the displayed string. */
  function VolumeOf(d: Details): Volume {
    Volume(Some(VolumeInfo(
      Some(d.title), Some([d.author]), Some([Identifier(Some(d.isbn))]),
      Some(d.description), Some([d.category]), Some(ImageLinks(Some(d.thumbnail))))))
  }

  /** Every field of a volume that states it is copied through unchanged:
      the mapping recovers the details from `VolumeOf`. */
  lemma DetailsRoundTrip(d: Details)
    ensures GetBookDetails(VolumeOf(d)) == Some(d)
  {
  }

  /** Dropping one field from a volume that carries every field changes
      exactly that field of the details, to its default. */
  lemma MissingFieldGetsDefault(d: Details)
    ensures var info := VolumeOf(d).volumeInfo.value;
            && GetBookDetails(Volume(Some(info.(title := None)))) == Some(d.(title := "Unknown Title"))
            && GetBookDetails(Volume(Some(info.(authors := None)))) == Some(d.(author := "Unknown Author"))
            && GetBookDetails(Volume(Some(info.(industryIdentifiers := None)))) == Some(d.(isbn := ""))
            && GetBookDetails(Volume(Some(info.(description := None)))) == Some(d.(description := ""))
            && GetBookDetails(Volume(Some(info.(categories := None)))) == Some(d.(category := "Uncategorized"))
            && GetBookDetails(Volume(Some(info.(imageLinks := None)))) == Some(d.(thumbnail := ""))
  {
  }
}

=== FILE: cart.dfy ===
/** The shopping cart of app.py (`add_to_cart`, `remove_from_cart`,
    `update_cart`), the checkout summary (`checkout`) and the cart payment
    (`process_payment`). */
module Cart {
  import opened Wrappers
  import opened Tables
  import opened Schema
  import opened Payments

  // ----- cart rows -----

  datatype AddOutcome = Added | CartBookNotFound

  function RowOf(user: nat, book: nat): CartItem -> bool {
    (c: CartItem) => c.userId == user && c.bookId == book
  }

  function OwnedItem(itemId: nat, user: nat): CartItem -> bool {
    (c: CartItem) => c.id == itemId && c.userId == user
  }

  function OwnedBy(user: nat): CartItem -> bool {
    (c: CartItem) => c.userId == user
  }

  function OneMore(): CartItem -> CartItem {
    (c: CartItem) => c.(quantity := c.quantity + 1)
  }

  function SetQuantity(q: int): CartItem -> CartItem {
    (c: CartItem) => c.(quantity := q)
  }

  /** `POST /add_to_cart/<book_id>`: one more copy of a book already in the
      cart, or a new row of quantity 1. */
  function AddToCart(db: Db, user: nat, book: nat): (r: (AddOutcome, Db))
    ensures FindBook(db, book).None? ==> r == (CartBookNotFound, db)
    ensures r.0.Added? <==> FindBook(db, book).Some?
    ensures r.1 == db.(cart := r.1.cart, next := r.1.next)
    ensures r.0.Added? && !Exists(db.cart, RowOf(user, book)) ==>
              r.1.cart == db.cart + [CartItem(db.next.cart, user, book, 1)]
              && r.1.next == db.next.(cart := db.next.cart + 1)
    ensures r.0.Added? && Exists(db.cart, RowOf(user, book)) ==>
              && r.1.next == db.next
              && |r.1.cart| == |db.cart|
              && forall i :: 0 <= i < |db.cart| ==>
                   r.1.cart[i] == (if db.cart[i].userId == user && db.cart[i].bookId == book
                                   then db.cart[i].(quantity := db.cart[i].quantity + 1) else db.cart[i])
  {
    if FindBook(db, book).None? then (CartBookNotFound, db)
    else if Exists(db.cart, RowOf(user, book)) then
      (Added, db.(cart := Update(db.cart, RowOf(user, book), OneMore())))
    else
      (Added, db.(cart := db.cart + [CartItem(db.next.cart, user, book, 1)],
                  next := db.next.(cart := db.next.cart + 1)))
  }

  /** Under the cart invariant, adding a book already in the cart raises the
      quantity of its one row. */
  lemma AddExisting(db: Db, user: nat, book: nat, k: int)
    requires Wf(db) && FindBook(db, book).Some?
    requires 0 <= k < |db.cart| && db.cart[k].userId == user && db.cart[k].bookId == book
    ensures AddToCart(db, user, book) == (Added, db.(cart := db.cart[k := db.cart[k].(quantity := db.cart[k].quantity + 1)]))
  {
    assert RowOf(user, book)(db.cart[k]);
    var r := AddToCart(db, user, book);
    forall i | 0 <= i < |db.cart| && i != k
      ensures !(db.cart[i].userId == user && db.cart[i].bookId == book)
    {
      if i < k {
        assert !(db.cart[i].userId == db.cart[k].userId && db.cart[i].bookId == db.cart[k].bookId);
      } else {
        assert !(db.cart[k].userId == db.cart[i].userId && db.cart[k].bookId == db.cart[i].bookId);
      }
    }
    assert r.1.cart == db.cart[k := db.cart[k].(quantity := db.cart[k].quantity + 1)];
  }

  /** Adding the same book twice to a cart without it gives one row of
      quantity 2, not two rows. */
  lemma AddTwice(db: Db, user: nat, book: nat)
    requires Wf(db) && FindBook(db, book).Some?
    requires !Exists(db.cart, RowOf(user, book))
    ensures var db2 := AddToCart(AddToCart(db, user, book).1, user, book).1;
            db2.cart == db.cart + [CartItem(db.next.cart, user, book, 2)]
  {
    var db1 := AddToCart(db, user, book).1;
    AddPreservesWf(db, user, book);
    assert FindBook(db1, book).Some?;
    AddExisting(db1, user, book, |db.cart|);
  }

  /** The invariant that a user's cart holds at most one row per book, with
      a positive quantity, survives every add. */
  lemma AddPreservesWf(db: Db, user: nat, book: nat)
    requires Wf(db)
    ensures Wf(AddToCart(db, user, book).1)
  {
    var r := AddToCart(db, user, book);
    if r.0.Added? {
      if Exists(db.cart, RowOf(user, book)) {
        UpdateKeyed(db.cart, CartKey, db.next.cart, RowOf(user, book), OneMore());
      } else {
        InsertKeyed(db.cart, CartKey, db.next.cart, CartItem(db.next.cart, user, book, 1));
      }
    }
  }

  /** `POST /remove_from_cart/<item_id>`: deletes the row only when it
      belongs to the requester. */
  function RemoveFromCart(db: Db, user: nat, itemId: nat): (r: Db)
    ensures r == db.(cart := r.cart)
    ensures forall i :: 0 <= i < |r.cart| ==> r.cart[i] in db.cart && !(r.cart[i].id == itemId && r.cart[i].userId == user)
    ensures forall i :: 0 <= i < |db.cart| && !(db.cart[i].id == itemId && db.cart[i].userId == user) ==> db.cart[i] in r.cart
  {
    db.(cart := Delete(db.cart, OwnedItem(itemId, user)))
  }

  /** Another user's item cannot be removed: the cart is unchanged. */
  lemma RemoveForeignItem(db: Db, user: nat, itemId: nat, k: int)
    requires Wf(db) && 0 <= k < |db.cart|
    requires db.cart[k].id == itemId && db.cart[k].userId != user
    ensures RemoveFromCart(db, user, itemId) == db
  {
    DeleteNone(db.cart, OwnedItem(itemId, user));
  }

  /** Rows drawn from a cart with at most one row per user and book, and
      no repeated key, have at most one row per user and book too. */
  lemma CartUniqueSub(sub: seq<CartItem>, cart: seq<CartItem>)
    requires CartUnique(cart) && KeysUnique(cart, CartKey) && KeysUnique(sub, CartKey)
    requires forall i :: 0 <= i < |sub| ==> sub[i] in cart
    ensures CartUnique(sub)
  {
    forall i, j | 0 <= i < j < |sub| ensures !(sub[i].userId == sub[j].userId && sub[i].bookId == sub[j].bookId) {
      var a :| 0 <= a < |cart| && cart[a] == sub[i];
      var b :| 0 <= b < |cart| && cart[b] == sub[j];
      assert CartKey(sub[i]) != CartKey(sub[j]);
      assert a != b;
    }
  }

  lemma RemovePreservesWf(db: Db, user: nat, itemId: nat)
    requires Wf(db)
    ensures Wf(RemoveFromCart(db, user, itemId))
  {
    var r := RemoveFromCart(db, user, itemId);
    DeleteKeyed(db.cart, CartKey, db.next.cart, OwnedItem(itemId, user));
    CartUniqueSub(r.cart, db.cart);
  }

  /** The quantity kept by an update: at least 1. */
  function ClampQuantity(q: int): (r: int)
    ensures r >= 1
    ensures q >= 1 ==> r == q
    ensures q < 1 ==> r == 1
  {
    if q < 1 then 1 else q
  }

  /** `POST /update_cart/<item_id>`: only the requester's row with that id
      takes the clamped quantity. */
  function UpdateCart(db: Db, user: nat, itemId: nat, q: int): (r: Db)
    ensures r == db.(cart := r.cart)
    ensures |r.cart| == |db.cart|
    ensures forall i :: 0 <= i < |db.cart| ==>
              r.cart[i] == (if db.cart[i].id == itemId && db.cart[i].userId == user
                            then db.cart[i].(quantity := ClampQuantity(q)) else db.cart[i])
  {
    db.(cart := Update(db.cart, OwnedItem(itemId, user), SetQuantity(ClampQuantity(q))))
  }

  lemma UpdatePreservesWf(db: Db, user: nat, itemId: nat, q: int)
    requires Wf(db)
    ensures Wf(UpdateCart(db, user, itemId, q))
  {
    UpdateKeyed(db.cart, CartKey, db.next.cart, OwnedItem(itemId, user), SetQuantity(ClampQuantity(q)));
  }

  // ----- checkout -----

  /** A cart row joined with its book, as the checkout queries return it. */
  datatype Line = Line(item: CartItem, book: Book)

  /** The join of `rows` of `user` with `books`; a row whose book is gone
      drops out of the join. */
  function LinesOf(db: Db, rows: seq<CartItem>, user: nat): (r: seq<Line>)
    ensures |r| <= |rows|
    ensures forall j :: 0 <= j < |r| ==>
              r[j].item in rows && r[j].item.userId == user && FindBook(db, r[j].item.bookId) == Some(r[j].book)
    ensures forall i :: 0 <= i < |rows| && rows[i].userId == user && FindBook(db, rows[i].bookId).Some? ==>
              Line(rows[i], FindBook(db, rows[i].bookId).value) in r
  {
    if rows == [] then []
    else
      var rest := LinesOf(db, rows[1..], user);
      assert forall i :: 1 <= i < |rows| ==> rows[i] == rows[1..][i - 1];
      if rows[0].userId == user && FindBook(db, rows[0].bookId).Some? then
        [Line(rows[0], FindBook(db, rows[0].bookId).value)] + rest
      else rest
  }

  function CartLines(db: Db, user: nat): seq<Line> {
    LinesOf(db, db.cart, user)
  }

  /** Every joined book has a price; a NULL price makes the total's
      arithmetic raise. */
  predicate AllPriced(lines: seq<Line>) {
    forall j :: 0 <= j < |lines| ==> lines[j].book.price.Some?
  }

  /** Σ price × quantity over the lines, in cents. */
  function Subtotal(lines: seq<Line>): int
    requires AllPriced(lines)
  {
    if lines == [] then 0
    else lines[0].book.price.value * lines[0].item.quantity + Subtotal(lines[1..])
  }

  lemma {:induction false} SubtotalNonNegative(lines: seq<Line>)
    requires AllPriced(lines)
    requires forall j :: 0 <= j < |lines| ==> lines[j].item.quantity >= 1
    ensures Subtotal(lines) >= 0
  {
    if lines != [] {
      SubtotalNonNegative(lines[1..]);
    }
  }

  datatype CheckoutPage = GoToCart | Summary(lines: seq<Line>, subtotal: int) | PageFailed

  /** `GET /checkout`: an empty cart sends the user back to the cart. */
  function CheckoutView(db: Db, user: nat): (r: CheckoutPage)
    ensures r.GoToCart? <==> CartLines(db, user) == []
    ensures r.Summary? <==> CartLines(db, user) != [] && AllPriced(CartLines(db, user))
    ensures r.Summary? ==> r.lines == CartLines(db, user) && AllPriced(r.lines) && r.subtotal == Subtotal(r.lines)
  {
    var lines := CartLines(db, user);
    if lines == [] then GoToCart
    else if !AllPriced(lines) then PageFailed
    else Summary(lines, Subtotal(lines))
  }

  /** One order item per line, with consecutive ids from `firstId`. */
  function OrderItemsFor(lines: seq<Line>, orderId: nat, firstId: nat): (r: seq<OrderItem>)
    requires AllPriced(lines)
    ensures |r| == |lines|
    ensures forall i :: 0 <= i < |lines| ==>
              r[i] == OrderItem(firstId + i, orderId, lines[i].item.bookId, lines[i].item.quantity, lines[i].book.price.value)
  {
    if lines == [] then []
    else [OrderItem(firstId, orderId, lines[0].item.bookId, lines[0].item.quantity, lines[0].book.price.value)]
         + OrderItemsFor(lines[1..], orderId, firstId + 1)
  }

  /** One purchase per line, at the line's price, with consecutive ids. */
  function PurchasesFor(lines: seq<Line>, user: nat, firstId: nat, now: int): (r: seq<Purchase>)
    requires AllPriced(lines)
    ensures |r| == |lines|
    ensures forall i :: 0 <= i < |lines| ==>
              r[i] == Purchase(firstId + i, user, lines[i].item.bookId, now, lines[i].book.price)
  {
    if lines == [] then []
    else [Purchase(firstId, user, lines[0].item.bookId, now, lines[0].book.price)]
         + PurchasesFor(lines[1..], user, firstId + 1, now)
  }

  /** Σ price × quantity over order items. */
  function ItemsTotal(items: seq<OrderItem>): int {
    if items == [] then 0 else items[0].price * items[0].quantity + ItemsTotal(items[1..])
  }

  /** The order's items add up to the cart subtotal. */
  lemma {:induction false} ItemsTotalIsSubtotal(lines: seq<Line>, orderId: nat, firstId: nat)
    requires AllPriced(lines)
    ensures ItemsTotal(OrderItemsFor(lines, orderId, firstId)) == Subtotal(lines)
  {
    if lines != [] {
      var items := OrderItemsFor(lines, orderId, firstId);
      assert items[1..] == OrderItemsFor(lines[1..], orderId, firstId + 1);
      ItemsTotalIsSubtotal(lines[1..], orderId, firstId + 1);
    }
  }

  datatype PayOutcome =
    | Paid(orderId: nat)
    | NoMethodChosen
    | EmptyCart
    | DetailsMissing
    /** The request raised and was rolled back: an unknown method leaves
        `payment_details` unbound, a NULL price breaks the total. */
    | PaymentFailed

  /** The writes of a successful cart payment. */
  function Settle(db: Db, user: nat, lines: seq<Line>, m: PaymentMethod, details: string, now: int): Db
    requires AllPriced(lines)
  {
    db.(orders := db.orders + [Order(db.next.order, user, Subtotal(lines), m, details, None, now)],
        orderItems := db.orderItems + OrderItemsFor(lines, db.next.order, db.next.orderItem),
        purchases := db.purchases + PurchasesFor(lines, user, db.next.purchase, now),
        cart := Delete(db.cart, OwnedBy(user)),
        next := db.next.(order := db.next.order + 1,
                         orderItem := db.next.orderItem + |lines|,
                         purchase := db.next.purchase + |lines|))
  }

  /** `POST /process_payment`. Every failure leaves the database as it
      was; a success writes one order, one order item and one purchase per
      cart line, and empties the user's cart. */
  function ProcessPayment(db: Db, user: nat, form: PaymentForm, now: int): (r: (PayOutcome, Db))
    ensures !r.0.Paid? ==> r.1 == db
    ensures r.0 == NoMethodChosen <==> form.methodName == ""
    ensures r.0 == EmptyCart <==> form.methodName != "" && CartLines(db, user) == []
    ensures r.0.Paid? <==> form.methodName != "" && CartLines(db, user) != []
                           && AllPriced(CartLines(db, user)) && CheckPayment(form).Valid?
    ensures r.0.Paid? ==>
      var lines := CartLines(db, user);
      var pay := CheckPayment(form);
      && r.0.orderId == db.next.order
      && r.1.orders == db.orders + [Order(db.next.order, user, Subtotal(lines), pay.paymentMethod, pay.details, None, now)]
      && r.1.orderItems == db.orderItems + OrderItemsFor(lines, db.next.order, db.next.orderItem)
      && r.1.purchases == db.purchases + PurchasesFor(lines, user, db.next.purchase, now)
      && (forall i :: 0 <= i < |r.1.cart| ==> r.1.cart[i].userId != user)
      && (forall i :: 0 <= i < |db.cart| && db.cart[i].userId != user ==> db.cart[i] in r.1.cart)
      && r.1.books == db.books && r.1.users == db.users && r.1.borrows == db.borrows
      && r.1.refunds == db.refunds && r.1.logs == db.logs
  {
    if form.methodName == "" then (NoMethodChosen, db)
    else
      var lines := CartLines(db, user);
      if lines == [] then (EmptyCart, db)
      else if !AllPriced(lines) then (PaymentFailed, db)
      else
        match CheckPayment(form)
        case Valid(m, details) => (Paid(db.next.order), Settle(db, user, lines, m, details, now))
        case MissingDetails => (DetailsMissing, db)
        case _ => (PaymentFailed, db)
  }

  /** The amount charged is the subtotal the checkout page showed, and the
      order's items add up to it. */
  lemma ChargeMatchesCheckout(db: Db, user: nat, form: PaymentForm, now: int)
    requires ProcessPayment(db, user, form, now).0.Paid?
    ensures var page := CheckoutView(db, user);
            var r := ProcessPayment(db, user, form, now);
            && page.Summary?
            && r.1.orders[|r.1.orders| - 1].totalAmount == page.subtotal
            && ItemsTotal(r.1.orderItems[|db.orderItems|..]) == page.subtotal
  {
    var lines := CartLines(db, user);
    var r := ProcessPayment(db, user, form, now);
    assert r.1.orderItems[|db.orderItems|..] == OrderItemsFor(lines, db.next.order, db.next.orderItem);
    ItemsTotalIsSubtotal(lines, db.next.order, db.next.orderItem);
  }

  /** An unknown payment method is rejected with nothing written. */
  lemma UnknownMethodRollsBack(db: Db, user: nat, form: PaymentForm, now: int)
    requires form.methodName != "" && ParseMethod(form.methodName).None?
    ensures ProcessPayment(db, user, form, now).1 == db
    ensures !ProcessPayment(db, user, form, now).0.Paid?
  {
  }

  lemma PaymentPreservesWf(db: Db, user: nat, form: PaymentForm, now: int)
    requires Wf(db)
    ensures Wf(ProcessPayment(db, user, form, now).1)
  {
    var r := ProcessPayment(db, user, form, now);
    if r.0.Paid? {
      var lines := CartLines(db, user);
      var pay := CheckPayment(form);
      InsertKeyed(db.orders, OrderKey, db.next.order,
                  Order(db.next.order, user, Subtotal(lines), pay.paymentMethod, pay.details, None, now));
      InsertManyKeyed(db.orderItems, OrderItemKey, db.next.orderItem, OrderItemsFor(lines, db.next.order, db.next.orderItem));
      InsertManyKeyed(db.purchases, PurchaseKey, db.next.purchase, PurchasesFor(lines, user, db.next.purchase, now));
      DeleteKeyed(db.cart, CartKey, db.next.cart, OwnedBy(user));
      CartUniqueSub(r.1.cart, db.cart);
    }
  }
}

=== FILE: catalog.dfy ===
/** The catalog import of app.py (`get_open_library_books`,
    `get_gutenberg_books`): already-fetched records are mapped to book
    columns and upserted with (title, source) as the dedup key. */
module Catalog {
  import opened Wrappers
  import opened Tables
  import opened Strings
  import opened Schema

  /** A work of the OpenLibrary subject listing; `None` marks a missing key. */
  datatype OpenLibraryWork = OpenLibraryWork(
    title: Option<string>,
    authorNames: seq<Option<string>>,
    description: Option<string>,
    coverId: Option<int>,
    key: Option<string>)

  /** A book of the Gutendex listing. */
  datatype GutenbergEntry = GutenbergEntry(
    title: Option<string>,
    authorNames: seq<Option<string>>,
    jpegUrl: Option<string>,
    htmlUrl: Option<string>)

  /** The columns an import writes for one fetched record. */
  datatype Fetched = Fetched(
    title: string,
    authors: string,
    description: string,
    coverImage: Option<string>,
    previewLink: Option<string>)

  /** At most this many Gutendex results are imported. */
  const GutenbergLimit: nat := 4

  /** Python's `str(i)`. */
  function IntToString(i: int): string {
    if i < 0 then "-" + NatToString(-i) else NatToString(i)
  }

  /** Author names, each missing one replaced by `default`. */
  function Names(authors: seq<Option<string>>, default: string): (r: seq<string>)
    ensures |r| == |authors|
    ensures forall i :: 0 <= i < |authors| ==> r[i] == authors[i].GetOr(default)
  {
    if authors == [] then [] else [authors[0].GetOr(default)] + Names(authors[1..], default)
  }

  /** The cover URL of an OpenLibrary cover id. */
  function CoverUrl(coverId: int): string {
    "https://covers.openlibrary.org/b/id/" + IntToString(coverId) + "-M.jpg"
  }

  /** The OpenLibrary mapping; `None` when the work has no title, where
      `work['title']` raises. A cover id of 0 counts as absent. */
  function FromOpenLibrary(w: OpenLibraryWork): (r: Option<Fetched>)
    ensures r.None? <==> w.title.None?
    ensures r.Some? ==> r.value.title == w.title.value && r.value.description == w.description.GetOr("")
    ensures r.Some? ==> r.value.authors == Join(Names(w.authorNames, "Unknown"), ", ")
    ensures r.Some? ==> (r.value.coverImage.None? <==> (w.coverId.None? || w.coverId.value == 0))
    ensures r.Some? && r.value.coverImage.Some? ==> r.value.coverImage.value == CoverUrl(w.coverId.value)
    ensures r.Some? ==> r.value.previewLink == Some("https://openlibrary.org" + w.key.GetOr("None"))
  {
    match w.title
    case None => None
    case Some(t) =>
      var cover := if w.coverId.Some? && w.coverId.value != 0 then Some(CoverUrl(w.coverId.value)) else None;
      Some(Fetched(t, Join(Names(w.authorNames, "Unknown"), ", "), w.description.GetOr(""), cover,
                   Some("https://openlibrary.org" + w.key.GetOr("None"))))
  }

  /** The description every Gutenberg import writes. */
  const GutenbergDescription: string := "A classic book from Project Gutenberg"

  /** The Gutendex mapping: every field defaults, and the description is
      fixed. */
  function FromGutenberg(g: GutenbergEntry): (r: Fetched)
    ensures r.title == g.title.GetOr("")
    ensures r.authors == Join(Names(g.authorNames, ""), ", ")
    ensures r.description == GutenbergDescription
    ensures r.coverImage == g.jpegUrl && r.previewLink == g.htmlUrl
  {
    Fetched(g.title.GetOr(""), Join(Names(g.authorNames, ""), ", "), GutenbergDescription, g.jpegUrl, g.htmlUrl)
  }

  function TitledFrom(title: string, src: Source): Book -> bool {
    (b: Book) => b.title == title && b.source == src
  }

  /** `SELECT id FROM books WHERE title = %s AND source = ...`. */
  function FindTitled(db: Db, title: string, src: Source): (r: Option<Book>)
    ensures r.Some? <==> Exists(db.books, TitledFrom(title, src))
    ensures r.Some? ==> r.value in db.books && r.value.title == title && r.value.source == src
  {
    var k := FirstMatch(db.books, TitledFrom(title, src));
    if k == -1 then None else Some(db.books[k])
  }

  /** One upsert: the existing row with the same title and source, or one
      new row (with no price) when there is none. */
  function Upsert(db: Db, f: Fetched, src: Source): (r: (Book, Db))
    ensures r.0.title == f.title && r.0.source == src && r.0 in r.1.books
    ensures FindTitled(db, f.title, src).Some? ==> r == (FindTitled(db, f.title, src).value, db)
    ensures FindTitled(db, f.title, src).None? ==>
              && r.0 == Book(db.next.book, f.title, f.authors, f.description, f.coverImage, f.previewLink, None, src)
              && r.1 == db.(books := db.books + [r.0], next := db.next.(book := db.next.book + 1))
  {
    match FindTitled(db, f.title, src)
    case Some(b) => (b, db)
    case None =>
      var b := Book(db.next.book, f.title, f.authors, f.description, f.coverImage, f.previewLink, None, src);
      (b, db.(books := db.books + [b], next := db.next.(book := db.next.book + 1)))
  }

  /** A row of a table is kept when the table only grows at the end. */
  lemma KeptRows(a: seq<Book>, b: seq<Book>, c: seq<Book>)
    requires |a| <= |b| && b[..|a|] == a && |b| <= |c| && c[..|b|] == b
    ensures |a| <= |c| && c[..|a|] == a
    ensures forall x :: x in b ==> x in c
  {
    assert c[..|a|] == c[..|b|][..|a|];
    forall x | x in b ensures x in c {
      var k :| 0 <= k < |b| && b[k] == x;
      assert c[k] == x;
    }
  }

  /** The upsert loop over already-mapped records, returning the book row of
      each record in order. */
  function UpsertAll(db: Db, fs: seq<Fetched>, src: Source): (r: (seq<Book>, Db))
    ensures |r.0| == |fs|
    ensures forall i :: 0 <= i < |fs| ==> r.0[i].title == fs[i].title && r.0[i].source == src
    ensures forall i :: 0 <= i < |fs| ==> r.0[i] in r.1.books
    ensures |db.books| <= |r.1.books| && r.1.books[..|db.books|] == db.books
    ensures r.1 == db.(books := r.1.books, next := r.1.next)
    decreases |fs|
  {
    if fs == [] then ([], db)
    else
      var (b, db1) := Upsert(db, fs[0], src);
      var (rest, db2) := UpsertAll(db1, fs[1..], src);
      KeptRows(db.books, db1.books, db2.books);
      ([b] + rest, db2)
  }

  /** The number of works before the first one without a title. */
  function TitledPrefix(works: seq<OpenLibraryWork>): (n: nat)
    ensures n <= |works|
    ensures forall i :: 0 <= i < n ==> works[i].title.Some?
    ensures n < |works| ==> works[n].title.None?
  {
    if works == [] || works[0].title.None? then 0
    else 1 + TitledPrefix(works[1..])
  }

  /** The mapped records of works that all have a title. */
  function MapWorks(works: seq<OpenLibraryWork>): (r: seq<Fetched>)
    requires forall i :: 0 <= i < |works| ==> works[i].title.Some?
    ensures |r| == |works|
    ensures forall i :: 0 <= i < |works| ==> FromOpenLibrary(works[i]) == Some(r[i])
  {
    seq(|works|, i requires 0 <= i < |works| => FromOpenLibrary(works[i]).value)
  }

  /** `get_open_library_books` after the fetch. A work without a title
      raises: the rows inserted before it stay, and the result is empty. */
  function ImportOpenLibrary(db: Db, works: seq<OpenLibraryWork>): (r: (seq<Book>, Db))
    ensures (forall i :: 0 <= i < |works| ==> works[i].title.Some?) ==> |r.0| == |works|
    ensures (exists i :: 0 <= i < |works| && works[i].title.None?) ==> r.0 == []
    ensures r.1 == db.(books := r.1.books, next := r.1.next)
    decreases |works|
  {
    if works == [] then ([], db)
    else
      match FromOpenLibrary(works[0])
      case None => ([], db)
      case Some(f) =>
        var (b, db1) := Upsert(db, f, OpenLibrary);
        var (rest, db2) := ImportOpenLibrary(db1, works[1..]);
        if |rest| == |works| - 1 then ([b] + rest, db2) else ([], db2)
  }

  /** Mapping a non-empty run of titled works: the head's record, then the
      tail's. */
  lemma MapWorksCons(works: seq<OpenLibraryWork>)
    requires works != [] && forall i :: 0 <= i < |works| ==> works[i].title.Some?
    ensures MapWorks(works) == [FromOpenLibrary(works[0]).value] + MapWorks(works[1..])
  {
  }

  /** The titled prefix of works starting with a titled one: its head, then
      the titled prefix of the rest. */
  lemma MapTitledPrefixCons(works: seq<OpenLibraryWork>)
    requires works != [] && works[0].title.Some?
    ensures var fs := MapWorks(works[..TitledPrefix(works)]);
            && fs != [] && fs[0] == FromOpenLibrary(works[0]).value
            && fs[1..] == MapWorks(works[1..][..TitledPrefix(works[1..])])
  {
    var n := TitledPrefix(works);
    assert works[..n][1..] == works[1..][..n - 1];
    MapWorksCons(works[..n]);
  }

  lemma UpsertAllCons(db: Db, fs: seq<Fetched>, src: Source)
    requires fs != []
    ensures UpsertAll(db, fs, src).1 == UpsertAll(Upsert(db, fs[0], src).1, fs[1..], src).1
  {
  }

  lemma ImportOpenLibraryCons(db: Db, works: seq<OpenLibraryWork>)
    requires works != [] && works[0].title.Some?
    ensures ImportOpenLibrary(db, works).1
         == ImportOpenLibrary(Upsert(db, FromOpenLibrary(works[0]).value, OpenLibrary).1, works[1..]).1
  {
  }

  /** The OpenLibrary import leaves the catalog of the upsert loop over the
      works before the first untitled one. */
  lemma {:induction false} ImportOpenLibraryState(db: Db, works: seq<OpenLibraryWork>)
    ensures var n := TitledPrefix(works);
            ImportOpenLibrary(db, works).1 == UpsertAll(db, MapWorks(works[..n]), OpenLibrary).1
    decreases |works|
  {
    var n := TitledPrefix(works);
    if works != [] && works[0].title.Some? {
      var db1 := Upsert(db, FromOpenLibrary(works[0]).value, OpenLibrary).1;
      ImportOpenLibraryCons(db, works);
      ImportOpenLibraryState(db1, works[1..]);
      MapTitledPrefixCons(works);
      UpsertAllCons(db, MapWorks(works[..n]), OpenLibrary);
    } else {
      assert works[..n] == [];
    }
  }

  /** When every work has a title, the OpenLibrary import is exactly the
      upsert loop over their records. */
  lemma {:induction false} ImportOpenLibraryIsUpsertAll(db: Db, works: seq<OpenLibraryWork>)
    requires forall i :: 0 <= i < |works| ==> works[i].title.Some?
    ensures ImportOpenLibrary(db, works) == UpsertAll(db, MapWorks(works), OpenLibrary)
    decreases |works|
  {
    if works != [] {
      var db1 := Upsert(db, FromOpenLibrary(works[0]).value, OpenLibrary).1;
      ImportOpenLibraryIsUpsertAll(db1, works[1..]);
      MapWorksCons(works);
    }
  }

  /** The Gutendex records an import maps: the first four results only. */
  function GutenbergRecords(entries: seq<GutenbergEntry>): (r: seq<Fetched>)
    ensures |r| == if |entries| < GutenbergLimit then |entries| else GutenbergLimit
    ensures forall i :: 0 <= i < |r| ==> r[i] == FromGutenberg(entries[i])
  {
    var n := if |entries| < GutenbergLimit then |entries| else GutenbergLimit;
    seq(n, i requires 0 <= i < n => FromGutenberg(entries[i]))
  }

  /** `get_gutenberg_books` after the fetch: the first four results are
      upserted under the Gutenberg source, and each returned row is in the
      catalog afterwards. */
  function ImportGutenberg(db: Db, entries: seq<GutenbergEntry>): (r: (seq<Book>, Db))
    ensures |r.0| == if |entries| < GutenbergLimit then |entries| else GutenbergLimit
    ensures forall i :: 0 <= i < |r.0| ==>
              && r.0[i].title == entries[i].title.GetOr("") && r.0[i].source == Gutenberg
              && r.0[i] in r.1.books
    ensures |db.books| <= |r.1.books| && r.1.books[..|db.books|] == db.books
    ensures r.1 == db.(books := r.1.books, next := r.1.next)
  {
    UpsertAll(db, GutenbergRecords(entries), Gutenberg)
  }

  /** Within one source, (title, source) identifies at most one row. Rows
      of other sources, such as admin-entered books, may repeat titles. */
  predicate TitlesDistinctIn(books: seq<Book>, src: Source) {
    forall i, j :: 0 <= i < j < |books| && books[i].source == src && books[j].source == src ==>
      books[i].title != books[j].title
  }

  lemma UpsertKeepsTitlesDistinct(db: Db, f: Fetched, src: Source)
    requires TitlesDistinctIn(db.books, src)
    ensures TitlesDistinctIn(Upsert(db, f, src).1.books, src)
  {
  }

  lemma {:induction false} UpsertAllKeepsTitlesDistinct(db: Db, fs: seq<Fetched>, src: Source)
    requires TitlesDistinctIn(db.books, src)
    ensures TitlesDistinctIn(UpsertAll(db, fs, src).1.books, src)
    decreases |fs|
  {
    if fs != [] {
      var db1 := Upsert(db, fs[0], src).1;
      UpsertKeepsTitlesDistinct(db, fs[0], src);
      UpsertAllKeepsTitlesDistinct(db1, fs[1..], src);
    }
  }

  /** After an import, every imported title is in the catalog under its
      source. */
  lemma {:induction false} UpsertAllStores(db: Db, fs: seq<Fetched>, src: Source, i: int)
    requires 0 <= i < |fs|
    ensures Exists(UpsertAll(db, fs, src).1.books, TitledFrom(fs[i].title, src))
    decreases |fs|
  {
    var (b, db1) := Upsert(db, fs[0], src);
    var db2 := UpsertAll(db1, fs[1..], src).1;
    if i == 0 {
      var k :| 0 <= k < |db1.books| && db1.books[k] == b;
      assert db2.books[k] == b;
    } else {
      UpsertAllStores(db1, fs[1..], src, i - 1);
    }
  }

  /** An import whose titles are all in the catalog already inserts
      nothing. */
  lemma {:induction false} UpsertAllPresent(db: Db, fs: seq<Fetched>, src: Source)
    requires forall i :: 0 <= i < |fs| ==> Exists(db.books, TitledFrom(fs[i].title, src))
    ensures UpsertAll(db, fs, src).1 == db
    decreases |fs|
  {
    if fs != [] {
      UpsertAllPresent(db, fs[1..], src);
    }
  }

  /** Importing the same records twice: the second import adds no row. */
  lemma ImportTwiceAddsNothing(db: Db, fs: seq<Fetched>, src: Source)
    ensures var db1 := UpsertAll(db, fs, src).1;
            UpsertAll(db1, fs, src).1 == db1
  {
    var db1 := UpsertAll(db, fs, src).1;
    forall i | 0 <= i < |fs| ensures Exists(db1.books, TitledFrom(fs[i].title, src)) {
      UpsertAllStores(db, fs, src, i);
    }
    UpsertAllPresent(db1, fs, src);
  }

  lemma {:induction false} UpsertAllPreservesWf(db: Db, fs: seq<Fetched>, src: Source)
    requires Wf(db)
    ensures Wf(UpsertAll(db, fs, src).1)
    decreases |fs|
  {
    if fs != [] {
      var (b, db1) := Upsert(db, fs[0], src);
      if FindTitled(db, fs[0].title, src).None? {
        InsertKeyed(db.books, BookKey, db.next.book, b);
      }
      UpsertAllPreservesWf(db1, fs[1..], src);
    }
  }

  /** The rows the OpenLibrary import inserts before it meets an untitled
      work stay, as do all earlier rows. */
  lemma ImportOpenLibraryKeepsRows(db: Db, works: seq<OpenLibraryWork>)
    ensures var books := ImportOpenLibrary(db, works).1.books;
            |db.books| <= |books| && books[..|db.books|] == db.books
    ensures forall i :: 0 <= i < TitledPrefix(works) ==>
              Exists(ImportOpenLibrary(db, works).1.books, TitledFrom(works[i].title.value, OpenLibrary))
  {
    ImportOpenLibraryState(db, works);
    var fs := MapWorks(works[..TitledPrefix(works)]);
    forall i | 0 <= i < TitledPrefix(works)
      ensures Exists(UpsertAll(db, fs, OpenLibrary).1.books, TitledFrom(works[i].title.value, OpenLibrary))
    {
      assert fs[i].title == works[i].title.value;
      UpsertAllStores(db, fs, OpenLibrary, i);
    }
  }

  /** The OpenLibrary import keeps the integrity invariant and never
      creates a second OpenLibrary row with the same title, even when it
      stops at an untitled work. */
  lemma ImportOpenLibraryPreservesWf(db: Db, works: seq<OpenLibraryWork>)
    requires Wf(db) && TitlesDistinctIn(db.books, OpenLibrary)
    ensures Wf(ImportOpenLibrary(db, works).1)
    ensures TitlesDistinctIn(ImportOpenLibrary(db, works).1.books, OpenLibrary)
  {
    ImportOpenLibraryState(db, works);
    var fs := MapWorks(works[..TitledPrefix(works)]);
    UpsertAllPreservesWf(db, fs, OpenLibrary);
    UpsertAllKeepsTitlesDistinct(db, fs, OpenLibrary);
  }

  /** Fetching the same titled works twice: the second import adds no row
      and returns the rows of the first. */
  lemma ImportOpenLibraryTwice(db: Db, works: seq<OpenLibraryWork>)
    requires forall i :: 0 <= i < |works| ==> works[i].title.Some?
    ensures var db1 := ImportOpenLibrary(db, works).1;
            ImportOpenLibrary(db1, works).1 == db1
  {
    var db1 := ImportOpenLibrary(db, works).1;
    ImportOpenLibraryIsUpsertAll(db, works);
    ImportOpenLibraryIsUpsertAll(db1, works);
    ImportTwiceAddsNothing(db, MapWorks(works), OpenLibrary);
  }

  /** The Gutenberg import keeps the integrity invariant and the per-source
      title uniqueness, and a repeated import adds no row. */
  lemma ImportGutenbergSound(db: Db, entries: seq<GutenbergEntry>)
    requires Wf(db) && TitlesDistinctIn(db.books, Gutenberg)
    ensures Wf(ImportGutenberg(db, entries).1)
    ensures TitlesDistinctIn(ImportGutenberg(db, entries).1.books, Gutenberg)
    ensures var db1 := ImportGutenberg(db, entries).1;
            ImportGutenberg(db1, entries).1 == db1
  {
    var fs := GutenbergRecords(entries);
    UpsertAllPreservesWf(db, fs, Gutenberg);
    UpsertAllKeepsTitlesDistinct(db, fs, Gutenberg);
    ImportTwiceAddsNothing(db, fs, Gutenberg);
  }
}

=== FILE: direct.dfy ===
/** The single-book checkout of app.py that bypasses the cart:
    `direct_checkout` stages the book in the session, and
    `process_direct_payment` pays for it. The session's staged value is an
    explicit `Pending` input and output. */
module Direct {
  import opened Wrappers
  import opened Tables
  import opened Schema
  import opened Payments
  import Lending

  /** The fee of a direct borrow, $2.00 whatever the number of days. */
  const DirectBorrowFee: nat := 200

  /** The borrow period when the form gives none. */
  const DefaultDirectDays: int := 14

  datatype PendingPurchase = PendingPurchase(bookId: nat, price: nat, title: string)
  datatype PendingBorrow = PendingBorrow(bookId: nat, title: string)

  /** The session's `direct_purchase` and `direct_borrow` entries. */
  datatype Pending = Pending(purchase: Option<PendingPurchase>, borrow: Option<PendingBorrow>)

  datatype StageOutcome =
    | Staged
    | InvalidAction
    | StageBookNotFound
    | StageAlreadyBorrowed
    /** The book's price is NULL: converting it raises, the error is
        reported and nothing is staged. */
    | StageFailed

  /** The direct borrow's duplicate test: a record of the user and book
      with no return date (`return_date IS NULL`). It does not look at
      `returned`, unlike the timed borrow's test. */
  predicate HoldsUndated(db: Db, user: nat, book: nat) {
    exists i :: 0 <= i < |db.borrows| && db.borrows[i].userId == user
                && db.borrows[i].bookId == book && db.borrows[i].returnDate.None?
  }

  /** `POST /direct_checkout/<book_id>/<action>`. The database is only
      read; what changes is the staged value. */
  function DirectCheckout(db: Db, pending: Pending, user: nat, book: nat, action: string): (r: (StageOutcome, Pending))
    ensures action != "buy" && action != "borrow" ==> r == (InvalidAction, pending)
    ensures (action == "buy" || action == "borrow") && FindBook(db, book).None? ==> r == (StageBookNotFound, pending)
    ensures action == "buy" && FindBook(db, book).Some? ==>
              var b := FindBook(db, book).value;
              r == (if b.price.None? then (StageFailed, pending)
                    else (Staged, pending.(purchase := Some(PendingPurchase(book, b.price.value, b.title)))))
    ensures action == "borrow" && FindBook(db, book).Some? ==>
              r == (if HoldsUndated(db, user, book) then (StageAlreadyBorrowed, pending)
                    else (Staged, pending.(borrow := Some(PendingBorrow(book, FindBook(db, book).value.title)))))
  {
    if action != "buy" && action != "borrow" then (InvalidAction, pending)
    else
      match FindBook(db, book)
      case None => (StageBookNotFound, pending)
      case Some(b) =>
        if action == "buy" then
          if b.price.None? then (StageFailed, pending)
          else (Staged, pending.(purchase := Some(PendingPurchase(book, b.price.value, b.title))))
        else if HoldsUndated(db, user, book) then (StageAlreadyBorrowed, pending)
        else (Staged, pending.(borrow := Some(PendingBorrow(book, b.title))))
  }

  datatype DirectPayOutcome =
    | DirectPaid(orderId: nat)
    | NothingPending
    | DirectNoMethod
    | DirectDetailsMissing
    | InvalidMethod

  /** `POST /process_direct_payment`. `days` is the form's day count, if
      any; it is not range-checked. The inserts are committed one by one in
      the source, so no atomicity is claimed; the model has no failing
      insert. When both a purchase and a borrow are staged, only the
      purchase is paid, and clearing the session discards the staged
      borrow. */
  function ProcessDirectPayment(db: Db, pending: Pending, user: nat, form: PaymentForm, days: Option<int>, now: int)
    : (r: (DirectPayOutcome, Db, Pending))
    ensures !r.0.DirectPaid? ==> r.1 == db && r.2 == pending
    ensures r.0 == NothingPending <==> pending.purchase.None? && pending.borrow.None?
    ensures r.0.DirectPaid? <==> (pending.purchase.Some? || pending.borrow.Some?) && CheckPayment(form).Valid?
    ensures r.0 == InvalidMethod <==> (pending.purchase.Some? || pending.borrow.Some?) && CheckPayment(form).UnknownMethod?
    ensures r.0.DirectPaid? ==>
      && r.2 == Pending(None, None)
      && r.0.orderId == db.next.order
      && |r.1.orders| == |db.orders| + 1
      && r.1 == db.(orders := r.1.orders, orderItems := r.1.orderItems, purchases := r.1.purchases, borrows := r.1.borrows,
                    next := db.next.(order := r.1.next.order, orderItem := r.1.next.orderItem,
                                     purchase := r.1.next.purchase, borrow := r.1.next.borrow))
  {
    if pending.purchase.None? && pending.borrow.None? then (NothingPending, db, pending)
    else
      match CheckPayment(form)
      case NoMethod => (DirectNoMethod, db, pending)
      case UnknownMethod => (InvalidMethod, db, pending)
      case MissingDetails => (DirectDetailsMissing, db, pending)
      case Valid(m, details) =>
        var orderId := db.next.order;
        if pending.purchase.Some? then
          var p := pending.purchase.value;
          (DirectPaid(orderId),
           db.(orders := db.orders + [Order(orderId, user, p.price, m, details, Some(PurchaseOrder), now)],
               orderItems := db.orderItems + [OrderItem(db.next.orderItem, orderId, p.bookId, 1, p.price)],
               purchases := db.purchases + [Purchase(db.next.purchase, user, p.bookId, now, Some(p.price))],
               next := db.next.(order := orderId + 1, orderItem := db.next.orderItem + 1,
                                purchase := db.next.purchase + 1)),
           Pending(None, None))
        else
          var b := pending.borrow.value;
          var d := days.GetOr(DefaultDirectDays);
          (DirectPaid(orderId),
           db.(orders := db.orders + [Order(orderId, user, DirectBorrowFee, m, details, Some(BorrowOrder), now)],
               borrows := db.borrows + [Borrow(db.next.borrow, user, b.bookId, now, None, Some(now + d * SecondsPerDay),
                                               None, None, false, None, Some(orderId))],
               next := db.next.(order := orderId + 1, borrow := db.next.borrow + 1)),
           Pending(None, None))
  }

  /** A paid direct purchase writes a purchase order for the staged price,
      one order item of quantity 1 and one purchase at that price. */
  lemma DirectPurchaseWrites(db: Db, p: PendingPurchase, b: Option<PendingBorrow>, user: nat, form: PaymentForm,
                             days: Option<int>, now: int)
    requires CheckPayment(form).Valid?
    ensures var r := ProcessDirectPayment(db, Pending(Some(p), b), user, form, days, now);
            var pay := CheckPayment(form);
            && r.1.orders == db.orders + [Order(db.next.order, user, p.price, pay.paymentMethod, pay.details, Some(PurchaseOrder), now)]
            && r.1.orderItems == db.orderItems + [OrderItem(db.next.orderItem, db.next.order, p.bookId, 1, p.price)]
            && r.1.purchases == db.purchases + [Purchase(db.next.purchase, user, p.bookId, now, Some(p.price))]
            && r.1.borrows == db.borrows
  {
  }

  /** A paid direct borrow costs $2.00 for any number of days, defaults to
      14 days, and records a due date but no return date. */
  lemma DirectBorrowWrites(db: Db, b: PendingBorrow, user: nat, form: PaymentForm, days: Option<int>, now: int)
    requires CheckPayment(form).Valid?
    ensures var r := ProcessDirectPayment(db, Pending(None, Some(b)), user, form, days, now);
            var pay := CheckPayment(form);
            var d := if days.Some? then days.value else 14;
            && r.1.orders == db.orders + [Order(db.next.order, user, 200, pay.paymentMethod, pay.details, Some(BorrowOrder), now)]
            && r.1.borrows == db.borrows + [Borrow(db.next.borrow, user, b.bookId, now, None, Some(now + d * 86400),
                                                  None, None, false, None, Some(db.next.order))]
            && r.1.purchases == db.purchases && r.1.orderItems == db.orderItems
  {
  }

  /** After a paid direct borrow the same book cannot be staged for a
      direct borrow again. */
  lemma DirectBorrowBlocksRestage(db: Db, b: PendingBorrow, user: nat, form: PaymentForm, days: Option<int>, now: int,
                                  pending: Pending)
    requires CheckPayment(form).Valid? && FindBook(db, b.bookId).Some?
    ensures var db1 := ProcessDirectPayment(db, Pending(None, Some(b)), user, form, days, now).1;
            DirectCheckout(db1, pending, user, b.bookId, "borrow") == (StageAlreadyBorrowed, pending)
  {
    var db1 := ProcessDirectPayment(db, Pending(None, Some(b)), user, form, days, now).1;
    DirectBorrowWrites(db, b, user, form, days, now);
    assert db1.borrows[|db.borrows|].userId == user;
    assert HoldsUndated(db1, user, b.bookId);
  }

  /** A paid direct borrow leaves an unreturned record, which the timed
      borrow's duplicate test sees: a later timed borrow of the same book is
      refused. */
  lemma DirectBorrowBlocksTimed(db: Db, b: PendingBorrow, user: nat, form: PaymentForm, ddays: Option<int>,
                                now: int, days: int, now2: int)
    requires CheckPayment(form).Valid? && Lending.MinDays <= days <= Lending.MaxDays
    ensures var db1 := ProcessDirectPayment(db, Pending(None, Some(b)), user, form, ddays, now).1;
            Lending.BorrowBook(db1, user, b.bookId, days, now2) == (Lending.AlreadyBorrowed, db1)
  {
    var db1 := ProcessDirectPayment(db, Pending(None, Some(b)), user, form, ddays, now).1;
    DirectBorrowWrites(db, b, user, form, ddays, now);
    assert !db1.borrows[|db.borrows|].returned;
    assert Lending.HoldsUnreturned(db1, user, b.bookId);
  }

  /** The two borrow paths test for duplicates differently: an unreturned
      timed borrow, which has a return date, does not stop a direct borrow
      of the same book. */
  lemma TimedBorrowDoesNotBlockDirect(db: Db, pending: Pending, user: nat, book: nat, k: int)
    requires FindBook(db, book).Some?
    requires forall i :: 0 <= i < |db.borrows| ==> db.borrows[i].returnDate.Some?
    requires 0 <= k < |db.borrows| && db.borrows[k].userId == user && db.borrows[k].bookId == book && !db.borrows[k].returned
    ensures DirectCheckout(db, pending, user, book, "borrow").0 == Staged
  {
  }

  /** The two duplicate tests together let a user hold the same book
      twice: after a timed borrow, a direct borrow of that book is staged
      and paid, leaving two unreturned records. */
  lemma TimedThenDirectTwoUnreturned(db: Db, user: nat, book: nat, days: int, now: int,
                                     form: PaymentForm, ddays: Option<int>, now2: int)
    requires Lending.BorrowBook(db, user, book, days, now).0.Borrowed?
    requires FindBook(db, book).Some? && !HoldsUndated(db, user, book) && CheckPayment(form).Valid?
    ensures var db1 := Lending.BorrowBook(db, user, book, days, now).1;
            var staged := DirectCheckout(db1, Pending(None, None), user, book, "borrow");
            var db2 := ProcessDirectPayment(db1, staged.1, user, form, ddays, now2).1;
            && staged.0 == Staged
            && Lending.CountUnreturned(db2.borrows, user, book) == 2
  {
    var db1 := Lending.BorrowBook(db, user, book, days, now).1;
    assert !HoldsUndated(db1, user, book) by {
      assert forall i :: 0 <= i < |db1.borrows| ==> db1.borrows[i].returnDate.Some? || i < |db.borrows|;
    }
    var staged := DirectCheckout(db1, Pending(None, None), user, book, "borrow");
    Lending.ExactlyOneUnreturnedAfterBorrow(db, user, book, days, now);
    var pb := staged.1.borrow.value;
    DirectBorrowWrites(db1, pb, user, form, ddays, now2);
    var db2 := ProcessDirectPayment(db1, staged.1, user, form, ddays, now2).1;
    Lending.CountUnreturnedAppend(db1.borrows, db2.borrows[|db1.borrows|], user, book);
  }

  lemma DirectPaymentPreservesWf(db: Db, pending: Pending, user: nat, form: PaymentForm, days: Option<int>, now: int)
    requires Wf(db)
    ensures Wf(ProcessDirectPayment(db, pending, user, form, days, now).1)
  {
    var r := ProcessDirectPayment(db, pending, user, form, days, now);
    if r.0.DirectPaid? {
      var pay := CheckPayment(form);
      if pending.purchase.Some? {
        var p := pending.purchase.value;
        InsertKeyed(db.orders, OrderKey, db.next.order, Order(db.next.order, user, p.price, pay.paymentMethod, pay.details, Some(PurchaseOrder), now));
        InsertKeyed(db.orderItems, OrderItemKey, db.next.orderItem, OrderItem(db.next.orderItem, db.next.order, p.bookId, 1, p.price));
        InsertKeyed(db.purchases, PurchaseKey, db.next.purchase, Purchase(db.next.purchase, user, p.bookId, now, Some(p.price)));
      } else {
        var b := pending.borrow.value;
        var d := days.GetOr(DefaultDirectDays);
        InsertKeyed(db.orders, OrderKey, db.next.order, Order(db.next.order, user, DirectBorrowFee, pay.paymentMethod, pay.details, Some(BorrowOrder), now));
        InsertKeyed(db.borrows, BorrowKey, db.next.borrow,
                    Borrow(db.next.borrow, user, b.bookId, now, None, Some(now + d * SecondsPerDay), None, None, false, None, Some(db.next.order)));
      }
    }
  }

  /** A directly borrowed book has no return date, so returning it raises
      on the date comparison and is rolled back: the return fails and
      nothing changes. */
  lemma DirectBorrowCannotBeReturned(db: Db, b: PendingBorrow, user: nat, form: PaymentForm, days: Option<int>,
                                     now: int, now2: int)
    requires Wf(db) && CheckPayment(form).Valid? && FindBook(db, b.bookId).Some?
    ensures var db1 := ProcessDirectPayment(db, Pending(None, Some(b)), user, form, days, now).1;
            Lending.ReturnBook(db1, db.next.borrow, user, false, now2) == (Lending.ReturnFailed, db1)
  {
    var db1 := ProcessDirectPayment(db, Pending(None, Some(b)), user, form, days, now).1;
    DirectBorrowWrites(db, b, user, form, days, now);
    DirectPaymentPreservesWf(db, Pending(None, Some(b)), user, form, days, now);
    var k := |db.borrows|;
    assert Lending.Designates(db1, db.next.borrow, user, false, k);
    Lending.DesignatedIsFirst(db1, db.next.borrow, user, false, k);
  }
}

=== FILE: inventory.dfy ===
/** The quantity-tracking ledger of books.py: `borrow_book`, `return_book`
    and `buy_book` move copies in and out of stock and record each move as
    a transaction; `get_available_books` lists what is in stock. */
module Inventory {
  import opened Wrappers
  import opened Tables

  const SecondsPerDay: int := 86400

  /** The loan period of this ledger, 14 days. */
  const LoanDays: int := 14

  datatype TxKind = BorrowTx | BuyTx
  datatype TxStatus = Active | Completed

  /** A row of this ledger's `books` table: the copies in stock and the
      price. */
  datatype Stock = Stock(id: nat, title: string, quantity: int, price: nat)

  /** A row of `transactions`; a new row starts `active`. */
  datatype Transaction = Transaction(
    id: nat, userId: nat, bookId: nat, kind: TxKind, status: TxStatus, returnDate: Option<int>)

  datatype Ledger = Ledger(books: seq<Stock>, transactions: seq<Transaction>, nextTx: nat)

  datatype InvOutcome =
    | Done
    /** "Book not available": no such book, or no copy left. */
    | NotAvailable
    /** "You already have this book borrowed". */
    | AlreadyHeld
    /** "No active borrow record found". */
    | NoActiveBorrow

  function StockKey(s: Stock): nat { s.id }
  function TxKey(t: Transaction): nat { t.id }

  /** Book ids and transaction ids are primary keys. */
  predicate LedgerWf(l: Ledger) {
    KeysUnique(l.books, StockKey) && Keyed(l.transactions, TxKey, l.nextTx)
  }

  /** No book has a negative number of copies. */
  predicate StockNonNegative(l: Ledger) {
    forall i :: 0 <= i < |l.books| ==> l.books[i].quantity >= 0
  }

  function StockHasId(id: nat): Stock -> bool {
    (s: Stock) => s.id == id
  }

  function TxHasId(id: nat): Transaction -> bool {
    (t: Transaction) => t.id == id
  }

  function ActiveBorrowOf(user: nat, book: nat): Transaction -> bool {
    (t: Transaction) => t.userId == user && t.bookId == book && t.kind == BorrowTx && t.status == Active
  }

  function Take(): Stock -> Stock {
    (s: Stock) => s.(quantity := s.quantity - 1)
  }

  function Restock(): Stock -> Stock {
    (s: Stock) => s.(quantity := s.quantity + 1)
  }

  function Complete(): Transaction -> Transaction {
    (t: Transaction) => t.(status := Completed)
  }

  /** `SELECT quantity FROM books WHERE id = %s` with `fetchone()`. */
  function FindStock(l: Ledger, id: nat): (r: Option<Stock>)
    ensures r.Some? <==> exists i :: 0 <= i < |l.books| && l.books[i].id == id
    ensures r.Some? ==> r.value in l.books && r.value.id == id
  {
    var k := FirstMatch(l.books, StockHasId(id));
    if k == -1 then None else Some(l.books[k])
  }

  /** The availability test shared by borrow and buy:
      `not book or book[0] <= 0` fails it. */
  predicate InStock(l: Ledger, id: nat) {
    FindStock(l, id).Some? && FindStock(l, id).value.quantity > 0
  }

  /** `borrow_book(cursor, user_id, book_id)`. */
  function BorrowBook(l: Ledger, user: nat, book: nat, now: int): (r: (InvOutcome, Ledger))
    ensures !InStock(l, book) ==> r == (NotAvailable, l)
    ensures InStock(l, book) && Exists(l.transactions, ActiveBorrowOf(user, book)) ==> r == (AlreadyHeld, l)
    ensures r.0 == Done <==> InStock(l, book) && !Exists(l.transactions, ActiveBorrowOf(user, book))
    ensures r.0 == Done ==>
      && r.1.transactions == l.transactions + [Transaction(l.nextTx, user, book, BorrowTx, Active, Some(now + LoanDays * SecondsPerDay))]
      && r.1.nextTx == l.nextTx + 1
    ensures r.0 != Done ==> r.1 == l
  {
    if !InStock(l, book) then (NotAvailable, l)
    else if Exists(l.transactions, ActiveBorrowOf(user, book)) then (AlreadyHeld, l)
    else
      (Done, Ledger(Update(l.books, StockHasId(book), Take()),
                    l.transactions + [Transaction(l.nextTx, user, book, BorrowTx, Active, Some(now + LoanDays * SecondsPerDay))],
                    l.nextTx + 1))
  }

  /** `return_book(cursor, user_id, book_id)`: the first active borrow of
      the user and book is completed and a copy goes back into stock. */
  function ReturnBook(l: Ledger, user: nat, book: nat): (r: (InvOutcome, Ledger))
    ensures !Exists(l.transactions, ActiveBorrowOf(user, book)) ==> r == (NoActiveBorrow, l)
    ensures r.0 == Done <==> Exists(l.transactions, ActiveBorrowOf(user, book))
    ensures r.0 == Done ==> |r.1.transactions| == |l.transactions| && r.1.nextTx == l.nextTx
  {
    var k := FirstMatch(l.transactions, ActiveBorrowOf(user, book));
    if k == -1 then (NoActiveBorrow, l)
    else
      (Done, Ledger(Update(l.books, StockHasId(book), Restock()),
                    Update(l.transactions, TxHasId(l.transactions[k].id), Complete()),
                    l.nextTx))
  }

  /** `buy_book(cursor, user_id, book_id)`: no duplicate check, so a user
      may buy the same book again while copies remain. */
  function BuyBook(l: Ledger, user: nat, book: nat): (r: (InvOutcome, Ledger))
    ensures !InStock(l, book) ==> r == (NotAvailable, l)
    ensures r.0 == Done <==> InStock(l, book)
    ensures r.0 == Done ==>
      && r.1.transactions == l.transactions + [Transaction(l.nextTx, user, book, BuyTx, Active, None)]
      && r.1.nextTx == l.nextTx + 1
  {
    if !InStock(l, book) then (NotAvailable, l)
    else
      (Done, Ledger(Update(l.books, StockHasId(book), Take()),
                    l.transactions + [Transaction(l.nextTx, user, book, BuyTx, Active, None)],
                    l.nextTx + 1))
  }

  /** The index of a book's row, under unique book ids. */
  lemma StockRow(l: Ledger, book: nat, k: int)
    requires LedgerWf(l) && 0 <= k < |l.books| && l.books[k].id == book
    ensures FindStock(l, book) == Some(l.books[k])
    ensures forall i :: 0 <= i < |l.books| ==> (StockHasId(book)(l.books[i]) <==> StockKey(l.books[i]) == StockKey(l.books[k]))
  {
  }

  /** A successful borrow takes exactly one copy of that book and leaves
      every other book as it was. */
  lemma BorrowTakesOneCopy(l: Ledger, user: nat, book: nat, now: int, k: int)
    requires LedgerWf(l) && 0 <= k < |l.books| && l.books[k].id == book
    requires BorrowBook(l, user, book, now).0 == Done
    ensures BorrowBook(l, user, book, now).1.books == l.books[k := l.books[k].(quantity := l.books[k].quantity - 1)]
  {
    StockRow(l, book, k);
    UpdateUnique(l.books, StockKey, StockHasId(book), Take(), k);
  }

  /** A successful buy takes exactly one copy of that book and leaves every
      other book as it was. */
  lemma BuyTakesOneCopy(l: Ledger, user: nat, book: nat, k: int)
    requires LedgerWf(l) && 0 <= k < |l.books| && l.books[k].id == book
    requires BuyBook(l, user, book).0 == Done
    ensures BuyBook(l, user, book).1.books == l.books[k := l.books[k].(quantity := l.books[k].quantity - 1)]
  {
    StockRow(l, book, k);
    UpdateUnique(l.books, StockKey, StockHasId(book), Take(), k);
  }

  /** The loan a borrow just opened is the user's only active loan of the
      book, so a return finds it. */
  lemma FreshLoanIsFirstActive(l: Ledger, user: nat, book: nat, now: int)
    requires BorrowBook(l, user, book, now).0 == Done
    ensures var l1 := BorrowBook(l, user, book, now).1;
            FirstMatch(l1.transactions, ActiveBorrowOf(user, book)) == |l.transactions|
  {
    var l1 := BorrowBook(l, user, book, now).1;
    assert ActiveBorrowOf(user, book)(l1.transactions[|l.transactions|]);
  }

  /** Taking a copy and putting it back restores the stock rows. */
  lemma TakeThenRestock(rows: seq<Stock>, book: nat)
    ensures Update(Update(rows, StockHasId(book), Take()), StockHasId(book), Restock()) == rows
  {
    var once := Update(rows, StockHasId(book), Take());
    var twice := Update(once, StockHasId(book), Restock());
    forall i | 0 <= i < |rows| ensures twice[i] == rows[i] {
      assert once[i].id == rows[i].id;
    }
  }

  /** Borrowing a book and then returning it restores every stock count;
      the loan stays on record as completed. */
  lemma BorrowThenReturnRestores(l: Ledger, user: nat, book: nat, now: int)
    requires LedgerWf(l)
    requires BorrowBook(l, user, book, now).0 == Done
    ensures var l1 := BorrowBook(l, user, book, now).1;
            var r := ReturnBook(l1, user, book);
            && r.0 == Done
            && r.1.books == l.books
            && r.1.transactions == l.transactions
                 + [Transaction(l.nextTx, user, book, BorrowTx, Completed, Some(now + LoanDays * SecondsPerDay))]
  {
    TakeThenRestock(l.books, book);
    FreshLoanIsFirstActive(l, user, book, now);
    FreshLoanCompleted(l, user, book, now);
  }

  /** Returning the loan a borrow just opened marks it completed and
      changes no other transaction. */
  lemma FreshLoanCompleted(l: Ledger, user: nat, book: nat, now: int)
    requires LedgerWf(l)
    requires BorrowBook(l, user, book, now).0 == Done
    ensures var l1 := BorrowBook(l, user, book, now).1;
            Update(l1.transactions, TxHasId(l.nextTx), Complete())
              == l.transactions + [Transaction(l.nextTx, user, book, BorrowTx, Completed, Some(now + LoanDays * SecondsPerDay))]
  {
    var l1 := BorrowBook(l, user, book, now).1;
    var t := Transaction(l.nextTx, user, book, BorrowTx, Active, Some(now + LoanDays * SecondsPerDay));
    var n := |l.transactions|;
    InsertKeyed(l.transactions, TxKey, l.nextTx, t);
    UpdateUnique(l1.transactions, TxKey, TxHasId(l.nextTx), Complete(), n);
    assert l1.transactions[n := Complete()(t)] == l.transactions + [Complete()(t)];
  }

  /** A successful return completes the user's first active loan of the
      book and puts one copy of it back. */
  lemma ReturnRestocksOneCopy(l: Ledger, user: nat, book: nat, k: int)
    requires LedgerWf(l) && 0 <= k < |l.books| && l.books[k].id == book
    requires ReturnBook(l, user, book).0 == Done
    ensures var j := FirstMatch(l.transactions, ActiveBorrowOf(user, book));
            var r := ReturnBook(l, user, book).1;
            && 0 <= j < |l.transactions|
            && r.books == l.books[k := l.books[k].(quantity := l.books[k].quantity + 1)]
            && r.transactions == l.transactions[j := l.transactions[j].(status := Completed)]
  {
    var j := FirstMatch(l.transactions, ActiveBorrowOf(user, book));
    StockRow(l, book, k);
    UpdateUnique(l.books, StockKey, StockHasId(book), Restock(), k);
    UpdateUnique(l.transactions, TxKey, TxHasId(l.transactions[j].id), Complete(), j);
  }

  /** With no duplicate check, a second purchase of the same book by the
      same user succeeds as long as a copy is left. */
  lemma BuyAgain(l: Ledger, user: nat, book: nat, k: int)
    requires LedgerWf(l) && 0 <= k < |l.books| && l.books[k].id == book && l.books[k].quantity >= 2
    ensures var l1 := BuyBook(l, user, book).1;
            BuyBook(l, user, book).0 == Done && BuyBook(l1, user, book).0 == Done
  {
    StockRow(l, book, k);
    BuyTakesOneCopy(l, user, book, k);
    var l1 := BuyBook(l, user, book).1;
    assert l1.books[k].id == book;
    assert LedgerWf(l1) by {
      assert forall i :: 0 <= i < |l1.books| ==> l1.books[i].id == l.books[i].id;
      InsertKeyed(l.transactions, TxKey, l.nextTx, Transaction(l.nextTx, user, book, BuyTx, Active, None));
    }
    StockRow(l1, book, k);
  }

  /** Taking a copy of a book in stock leaves no negative count. */
  lemma TakeKeepsNonNegative(l: Ledger, book: nat)
    requires LedgerWf(l) && StockNonNegative(l) && InStock(l, book)
    ensures forall i :: 0 <= i < |l.books| ==> Update(l.books, StockHasId(book), Take())[i].quantity >= 0
  {
    var k := FirstMatch(l.books, StockHasId(book));
    StockRow(l, book, k);
    UpdateUnique(l.books, StockKey, StockHasId(book), Take(), k);
  }

  /** The three ledger operations. */
  datatype Op = BorrowOp(user: nat, book: nat, now: int) | ReturnOp(user: nat, book: nat) | BuyOp(user: nat, book: nat)

  function Step(l: Ledger, op: Op): Ledger {
    match op
    case BorrowOp(u, b, now) => BorrowBook(l, u, b, now).1
    case ReturnOp(u, b) => ReturnBook(l, u, b).1
    case BuyOp(u, b) => BuyBook(l, u, b).1
  }

  /** The ledger after a sequence of operations, in order. */
  function Run(l: Ledger, ops: seq<Op>): Ledger
    decreases |ops|
  {
    if ops == [] then l else Run(Step(l, ops[0]), ops[1..])
  }

  /** Taking a copy keeps every book id in place. */
  lemma TakeKeepsIds(l: Ledger, book: nat)
    ensures var rows := Update(l.books, StockHasId(book), Take());
            |rows| == |l.books| && forall i :: 0 <= i < |rows| ==> StockKey(rows[i]) == StockKey(l.books[i])
  {
  }

  lemma BorrowKeepsInvariant(l: Ledger, u: nat, b: nat, now: int)
    requires LedgerWf(l) && StockNonNegative(l)
    ensures LedgerWf(BorrowBook(l, u, b, now).1) && StockNonNegative(BorrowBook(l, u, b, now).1)
  {
    if BorrowBook(l, u, b, now).0 == Done {
      TakeKeepsNonNegative(l, b);
      TakeKeepsIds(l, b);
      InsertKeyed(l.transactions, TxKey, l.nextTx, Transaction(l.nextTx, u, b, BorrowTx, Active, Some(now + LoanDays * SecondsPerDay)));
    }
  }

  lemma ReturnKeepsInvariant(l: Ledger, u: nat, b: nat)
    requires LedgerWf(l) && StockNonNegative(l)
    ensures LedgerWf(ReturnBook(l, u, b).1) && StockNonNegative(ReturnBook(l, u, b).1)
  {
    if ReturnBook(l, u, b).0 == Done {
      var j := FirstMatch(l.transactions, ActiveBorrowOf(u, b));
      UpdateKeyed(l.transactions, TxKey, l.nextTx, TxHasId(l.transactions[j].id), Complete());
      var rows := ReturnBook(l, u, b).1.books;
      assert forall i :: 0 <= i < |rows| ==> StockKey(rows[i]) == StockKey(l.books[i]);
    }
  }

  lemma BuyKeepsInvariant(l: Ledger, u: nat, b: nat)
    requires LedgerWf(l) && StockNonNegative(l)
    ensures LedgerWf(BuyBook(l, u, b).1) && StockNonNegative(BuyBook(l, u, b).1)
  {
    if BuyBook(l, u, b).0 == Done {
      TakeKeepsNonNegative(l, b);
      TakeKeepsIds(l, b);
      InsertKeyed(l.transactions, TxKey, l.nextTx, Transaction(l.nextTx, u, b, BuyTx, Active, None));
    }
  }

  /** Each operation keeps the keys and the non-negative stock: both
      decrements are guarded by `quantity > 0`. */
  lemma StepKeepsInvariant(l: Ledger, op: Op)
    requires LedgerWf(l) && StockNonNegative(l)
    ensures LedgerWf(Step(l, op)) && StockNonNegative(Step(l, op))
  {
    match op
    case BorrowOp(u, b, now) => BorrowKeepsInvariant(l, u, b, now);
    case ReturnOp(u, b) => ReturnKeepsInvariant(l, u, b);
    case BuyOp(u, b) => BuyKeepsInvariant(l, u, b);
  }

  /** Across any sequence of borrows, returns and buys, no book's stock
      ever becomes negative. */
  lemma {:induction false} StockNeverNegative(l: Ledger, ops: seq<Op>)
    requires LedgerWf(l) && StockNonNegative(l)
    ensures StockNonNegative(Run(l, ops))
    decreases |ops|
  {
    if ops != [] {
      StepKeepsInvariant(l, ops[0]);
      StockNeverNegative(Step(l, ops[0]), ops[1..]);
    }
  }

  /** An open loan: a borrow transaction still `active`. */
  predicate IsActiveLoan(t: Transaction) {
    t.kind == BorrowTx && t.status == Active
  }

  /** A user holds at most one open loan of a book: the borrow guard
      refuses a second one. */
  predicate ActiveLoansUnique(l: Ledger) {
    forall i, j :: 0 <= i < j < |l.transactions| && IsActiveLoan(l.transactions[i]) && IsActiveLoan(l.transactions[j]) ==>
      l.transactions[i].userId != l.transactions[j].userId || l.transactions[i].bookId != l.transactions[j].bookId
  }

  lemma BorrowKeepsLoansUnique(l: Ledger, u: nat, b: nat, now: int)
    requires ActiveLoansUnique(l)
    ensures ActiveLoansUnique(BorrowBook(l, u, b, now).1)
  {
    if BorrowBook(l, u, b, now).0 == Done {
      var tx := BorrowBook(l, u, b, now).1.transactions;
      var n := |l.transactions|;
      forall i | 0 <= i < n && IsActiveLoan(tx[i]) && tx[i].userId == u
        ensures tx[i].bookId != b
      {
        assert tx[i] == l.transactions[i];
      }
    }
  }

  lemma BuyKeepsLoansUnique(l: Ledger, u: nat, b: nat)
    requires ActiveLoansUnique(l)
    ensures ActiveLoansUnique(BuyBook(l, u, b).1)
  {
  }

  /** Completing one transaction closes at most one loan and opens none. */
  lemma CompleteKeepsLoansUnique(l: Ledger, id: nat)
    requires ActiveLoansUnique(l)
    ensures ActiveLoansUnique(l.(transactions := Update(l.transactions, TxHasId(id), Complete())))
  {
    var tx := Update(l.transactions, TxHasId(id), Complete());
    assert forall i :: 0 <= i < |tx| && IsActiveLoan(tx[i]) ==> tx[i] == l.transactions[i];
  }

  lemma ReturnKeepsLoansUnique(l: Ledger, u: nat, b: nat)
    requires ActiveLoansUnique(l)
    ensures ActiveLoansUnique(ReturnBook(l, u, b).1)
  {
    if ReturnBook(l, u, b).0 == Done {
      var j := FirstMatch(l.transactions, ActiveBorrowOf(u, b));
      CompleteKeepsLoansUnique(l, l.transactions[j].id);
    }
  }

  lemma StepKeepsLoansUnique(l: Ledger, op: Op)
    requires ActiveLoansUnique(l)
    ensures ActiveLoansUnique(Step(l, op))
  {
    match op
    case BorrowOp(u, b, now) => BorrowKeepsLoansUnique(l, u, b, now);
    case ReturnOp(u, b) => ReturnKeepsLoansUnique(l, u, b);
    case BuyOp(u, b) => BuyKeepsLoansUnique(l, u, b);
  }

  /** Across any sequence of operations, no user holds two open loans of
      the same book. */
  lemma {:induction false} LoansStayUnique(l: Ledger, ops: seq<Op>)
    requires ActiveLoansUnique(l)
    ensures ActiveLoansUnique(Run(l, ops))
    decreases |ops|
  {
    if ops != [] {
      StepKeepsLoansUnique(l, ops[0]);
      LoansStayUnique(Step(l, ops[0]), ops[1..]);
    }
  }

  /** With at most one open loan per user and book, a successful return
      leaves the user no open loan of the book, so a second return is
      refused. */
  lemma ReturnClosesTheLoan(l: Ledger, u: nat, b: nat)
    requires ActiveLoansUnique(l)
    requires ReturnBook(l, u, b).0 == Done
    ensures !Exists(ReturnBook(l, u, b).1.transactions, ActiveBorrowOf(u, b))
    ensures ReturnBook(ReturnBook(l, u, b).1, u, b).0 == NoActiveBorrow
  {
    var j := FirstMatch(l.transactions, ActiveBorrowOf(u, b));
    var tx := ReturnBook(l, u, b).1.transactions;
    forall i | 0 <= i < |tx| ensures !ActiveBorrowOf(u, b)(tx[i]) {
      if i != j && ActiveBorrowOf(u, b)(tx[i]) {
        assert tx[i] == l.transactions[i];
        assert IsActiveLoan(l.transactions[i]) && IsActiveLoan(l.transactions[j]);
        assert false;
      }
    }
  }

  /** `get_available_books`: the books with at least one copy, in table
      order. */
  function AvailableBooks(l: Ledger): (r: seq<Stock>)
    ensures forall i :: 0 <= i < |r| ==> r[i] in l.books && r[i].quantity > 0
    ensures forall i :: 0 <= i < |l.books| && l.books[i].quantity > 0 ==> l.books[i] in r
  {
    InStockRows(l.books)
  }

  function InStockRows(rows: seq<Stock>): (r: seq<Stock>)
    ensures forall i :: 0 <= i < |r| ==> r[i] in rows && r[i].quantity > 0
    ensures forall i :: 0 <= i < |rows| && rows[i].quantity > 0 ==> rows[i] in r
    ensures |r| <= |rows|
  {
    if rows == [] then []
    else if rows[0].quantity > 0 then [rows[0]] + InStockRows(rows[1..])
    else InStockRows(rows[1..])
  }

  /** A book is listed as available exactly when it has a copy. */
  lemma AvailableIffInStock(l: Ledger, s: Stock)
    requires s in l.books
    ensures s in AvailableBooks(l) <==> s.quantity > 0
  {
  }
}

=== FILE: lending.dfy ===
/** The timed borrow (`borrow_book_route`) and the return with its
    early-return refund (`return_book`) of app.py. */
module Lending {
  import opened Wrappers
  import opened Tables
  import opened Schema

  const MinDays: int := 1
  const MaxDays: int := 30

  datatype BorrowOutcome = Borrowed(record: Borrow) | DaysOutOfRange | AlreadyBorrowed

  /** The duplicate test of the timed borrow: an unreturned record of the
      same user and book (`returned = FALSE`). */
  predicate HoldsUnreturned(db: Db, user: nat, book: nat) {
    exists i :: 0 <= i < |db.borrows| && db.borrows[i].userId == user
                && db.borrows[i].bookId == book && !db.borrows[i].returned
  }

  /** The number of unreturned records of one user and book. */
  function CountUnreturned(rows: seq<Borrow>, user: nat, book: nat): nat {
    if rows == [] then 0
    else (if rows[0].userId == user && rows[0].bookId == book && !rows[0].returned then 1 else 0)
         + CountUnreturned(rows[1..], user, book)
  }

  /** `POST /borrow/<book_id>` with `days` already parsed from the form.
      The book's existence is not checked here, as in the route. */
  function BorrowBook(db: Db, user: nat, book: nat, days: int, now: int): (r: (BorrowOutcome, Db))
    ensures !(MinDays <= days <= MaxDays) ==> r == (DaysOutOfRange, db)
    ensures MinDays <= days <= MaxDays && HoldsUnreturned(db, user, book) ==> r == (AlreadyBorrowed, db)
    ensures r.0.Borrowed? <==> MinDays <= days <= MaxDays && !HoldsUnreturned(db, user, book)
    ensures r.0.Borrowed? ==>
      var rec := r.0.record;
      && r.1 == db.(borrows := db.borrows + [rec], next := db.next.(borrow := db.next.borrow + 1))
      && rec.id == db.next.borrow && rec.userId == user && rec.bookId == book
      && rec.borrowDate == now && rec.returnDate == Some(now + days * SecondsPerDay)
      && rec.daysBorrowed == Some(days) && rec.totalCost == Some(CentsPerDay * days)
      && !rec.returned && rec.actualReturnDate == None
      && rec.dueDate == None && rec.orderId == None
  {
    if days < MinDays || days > MaxDays then (DaysOutOfRange, db)
    else if HoldsUnreturned(db, user, book) then (AlreadyBorrowed, db)
    else
      var rec := Borrow(db.next.borrow, user, book, now, Some(now + days * SecondsPerDay), None,
                        Some(days), Some(CentsPerDay * days), false, None, None);
      (Borrowed(rec), db.(borrows := db.borrows + [rec], next := db.next.(borrow := db.next.borrow + 1)))
  }

  lemma {:induction false} CountUnreturnedZero(rows: seq<Borrow>, user: nat, book: nat)
    requires forall i :: 0 <= i < |rows| ==> !(rows[i].userId == user && rows[i].bookId == book && !rows[i].returned)
    ensures CountUnreturned(rows, user, book) == 0
  {
    if rows != [] {
      CountUnreturnedZero(rows[1..], user, book);
    }
  }

  lemma {:induction false} CountUnreturnedAppend(rows: seq<Borrow>, x: Borrow, user: nat, book: nat)
    ensures CountUnreturned(rows + [x], user, book)
         == CountUnreturned(rows, user, book) + (if x.userId == user && x.bookId == book && !x.returned then 1 else 0)
  {
    if rows == [] {
      assert [] + [x] == [x];
    } else {
      assert (rows + [x])[1..] == rows[1..] + [x];
      CountUnreturnedAppend(rows[1..], x, user, book);
    }
  }

  /** After a successful borrow the user holds exactly one unreturned
      record of the book. */
  lemma ExactlyOneUnreturnedAfterBorrow(db: Db, user: nat, book: nat, days: int, now: int)
    requires BorrowBook(db, user, book, days, now).0.Borrowed?
    ensures CountUnreturned(BorrowBook(db, user, book, days, now).1.borrows, user, book) == 1
  {
    var r := BorrowBook(db, user, book, days, now);
    CountUnreturnedZero(db.borrows, user, book);
    CountUnreturnedAppend(db.borrows, r.0.record, user, book);
  }

  /** A second borrow of the same book before it is returned is refused
      and changes nothing, whatever day count it asks for. */
  lemma SecondBorrowRefused(db: Db, user: nat, book: nat, days: int, days2: int, now: int, now2: int)
    requires BorrowBook(db, user, book, days, now).0.Borrowed?
    requires MinDays <= days2 <= MaxDays
    ensures var db1 := BorrowBook(db, user, book, days, now).1;
            BorrowBook(db1, user, book, days2, now2) == (AlreadyBorrowed, db1)
  {
    var db1 := BorrowBook(db, user, book, days, now).1;
    assert db1.borrows[|db1.borrows| - 1].userId == user;
    assert HoldsUnreturned(db1, user, book);
  }

  lemma BorrowPreservesWf(db: Db, user: nat, book: nat, days: int, now: int)
    requires Wf(db)
    ensures Wf(BorrowBook(db, user, book, days, now).1)
  {
    var r := BorrowBook(db, user, book, days, now);
    if r.0.Borrowed? {
      InsertKeyed(db.borrows, BorrowKey, db.next.borrow, r.0.record);
    }
  }

  // ----- return -----

  datatype ReturnOutcome =
    | NotFound
    | AlreadyReturned
    | Returned(refundDays: int)
    /** The record has no return date: the comparison with it raises and
        the request is rolled back. */
    | ReturnFailed

  function BorrowHasId(id: nat): Borrow -> bool {
    (r: Borrow) => r.id == id
  }

  /** The lookup of the return: the record's id, owned by the requester or
      requested by an admin, and joined with an existing book. */
  function ReturnSel(db: Db, borrowId: nat, user: nat, isAdmin: bool): Borrow -> bool {
    (r: Borrow) => r.id == borrowId && (r.userId == user || isAdmin) && FindBook(db, r.bookId).Some?
  }

  /** `(return_date - now).days` for an early return: whole days left,
      rounded down; zero once the return date has passed. */
  function RefundDays(returnDate: int, now: int): (d: int)
    ensures now < returnDate ==> d >= 0 && d * SecondsPerDay <= returnDate - now < (d + 1) * SecondsPerDay
    ensures now >= returnDate ==> d == 0
  {
    if now < returnDate then (returnDate - now) / SecondsPerDay else 0
  }

  function LessCost(amount: int): Borrow -> Borrow {
    (r: Borrow) => r.(totalCost := if r.totalCost.Some? then Some(r.totalCost.value - amount) else None)
  }

  function MarkReturned(now: int): Borrow -> Borrow {
    (r: Borrow) => r.(returned := true, actualReturnDate := Some(now))
  }

  /** The refund of an early return: a refund row and a lower cost on
      the record, when at least one whole day is left. */
  function RecordRefund(db: Db, borrowId: nat, d: int): (r: Db)
    ensures d <= 0 ==> r == db
    ensures d > 0 ==> r.refunds == db.refunds + [Refund(db.next.refund, borrowId, CentsPerDay * d, d)]
    ensures |r.borrows| == |db.borrows|
    ensures forall i :: 0 <= i < |db.borrows| && db.borrows[i].id != borrowId ==> r.borrows[i] == db.borrows[i]
    ensures d > 0 ==> forall i :: 0 <= i < |db.borrows| && db.borrows[i].id == borrowId ==>
              && r.borrows[i] == db.borrows[i].(totalCost := r.borrows[i].totalCost)
              && r.borrows[i].totalCost == (if db.borrows[i].totalCost.Some?
                                            then Some(db.borrows[i].totalCost.value - CentsPerDay * d) else None)
    ensures r == db.(borrows := r.borrows, refunds := r.refunds, next := db.next.(refund := r.next.refund))
  {
    if d > 0 then
      db.(refunds := db.refunds + [Refund(db.next.refund, borrowId, CentsPerDay * d, d)],
          borrows := Update(db.borrows, BorrowHasId(borrowId), LessCost(CentsPerDay * d)),
          next := db.next.(refund := db.next.refund + 1))
    else db
  }

  /** `POST /return-book/<borrow_id>`. A successful return reports the
      number of whole days refunded. */
  function ReturnBook(db: Db, borrowId: nat, user: nat, isAdmin: bool, now: int): (r: (ReturnOutcome, Db))
    ensures !r.0.Returned? ==> r.1 == db
    ensures r.0.NotFound? <==> !Exists(db.borrows, ReturnSel(db, borrowId, user, isAdmin))
    ensures |r.1.borrows| == |db.borrows|
    ensures forall i :: 0 <= i < |db.borrows| && db.borrows[i].id != borrowId ==> r.1.borrows[i] == db.borrows[i]
    ensures r.1 == db.(borrows := r.1.borrows, refunds := r.1.refunds, next := db.next.(refund := r.1.next.refund))
    ensures r.0.Returned? ==> r.0.refundDays >= 0
    ensures r.0.Returned? ==>
              exists k :: && Designates(db, borrowId, user, isAdmin, k)
                          && !db.borrows[k].returned && db.borrows[k].returnDate.Some?
                          && r.0.refundDays == RefundDays(db.borrows[k].returnDate.value, now)
    ensures r.0.Returned? && r.0.refundDays > 0 ==>
              r.1.refunds == db.refunds + [Refund(db.next.refund, borrowId, CentsPerDay * r.0.refundDays, r.0.refundDays)]
    ensures r.0.Returned? && r.0.refundDays == 0 ==> r.1.refunds == db.refunds
  {
    var k := FirstMatch(db.borrows, ReturnSel(db, borrowId, user, isAdmin));
    if k == -1 then (NotFound, db)
    else if db.borrows[k].returned then (AlreadyReturned, db)
    else if db.borrows[k].returnDate.None? then (ReturnFailed, db)
    else
      var d := RefundDays(db.borrows[k].returnDate.value, now);
      var db1 := RecordRefund(db, borrowId, d);
      assert Designates(db, borrowId, user, isAdmin, k);
      (Returned(d), db1.(borrows := Update(db1.borrows, BorrowHasId(borrowId), MarkReturned(now))))
  }

  /** The record a return request designates, when it exists: the one at
      index `k`, with the requested id, visible to the requester. */
  predicate Designates(db: Db, borrowId: nat, user: nat, isAdmin: bool, k: int) {
    0 <= k < |db.borrows| && ReturnSel(db, borrowId, user, isAdmin)(db.borrows[k])
  }

  lemma DesignatedIsFirst(db: Db, borrowId: nat, user: nat, isAdmin: bool, k: int)
    requires Wf(db) && Designates(db, borrowId, user, isAdmin, k)
    ensures FirstMatch(db.borrows, ReturnSel(db, borrowId, user, isAdmin)) == k
  {
  }

  /** A record already marked returned is refused, and nothing is written. */
  lemma AlreadyReturnedNoChange(db: Db, borrowId: nat, user: nat, isAdmin: bool, now: int, k: int)
    requires Wf(db) && Designates(db, borrowId, user, isAdmin, k) && db.borrows[k].returned
    ensures ReturnBook(db, borrowId, user, isAdmin, now) == (AlreadyReturned, db)
  {
    DesignatedIsFirst(db, borrowId, user, isAdmin, k);
  }

  /** A record with no return date cannot be compared with the clock: the
      return fails and nothing is written. */
  lemma UndatedReturnFails(db: Db, borrowId: nat, user: nat, isAdmin: bool, now: int, k: int)
    requires Wf(db) && Designates(db, borrowId, user, isAdmin, k)
    requires !db.borrows[k].returned && db.borrows[k].returnDate.None?
    ensures ReturnBook(db, borrowId, user, isAdmin, now) == (ReturnFailed, db)
  {
    DesignatedIsFirst(db, borrowId, user, isAdmin, k);
  }

  /** The shape of a successful return of the record at `k`: the refund,
      then the record marked returned. */
  lemma ReturnSteps(db: Db, borrowId: nat, user: nat, isAdmin: bool, now: int, k: int)
    requires Wf(db) && Designates(db, borrowId, user, isAdmin, k)
    requires !db.borrows[k].returned && db.borrows[k].returnDate.Some?
    ensures var d := RefundDays(db.borrows[k].returnDate.value, now);
            var db1 := RecordRefund(db, borrowId, d);
            ReturnBook(db, borrowId, user, isAdmin, now)
              == (Returned(d), db1.(borrows := Update(db1.borrows, BorrowHasId(borrowId), MarkReturned(now))))
  {
    DesignatedIsFirst(db, borrowId, user, isAdmin, k);
  }

  /** The refund lowers the cost of exactly the refunded record and keeps
      the borrow keys. */
  lemma RefundLowersOneCost(db: Db, borrowId: nat, d: int, k: int)
    requires Wf(db) && 0 <= k < |db.borrows| && db.borrows[k].id == borrowId && d > 0
    ensures var rows := RecordRefund(db, borrowId, d).borrows;
            && rows == db.borrows[k := LessCost(CentsPerDay * d)(db.borrows[k])]
            && Keyed(rows, BorrowKey, db.next.borrow)
  {
    UpdateUnique(db.borrows, BorrowKey, BorrowHasId(borrowId), LessCost(CentsPerDay * d), k);
    UpdateKeyed(db.borrows, BorrowKey, db.next.borrow, BorrowHasId(borrowId), LessCost(CentsPerDay * d));
  }

  /** An early return refunds $2 for each whole day left: exactly one
      refund row, and the record's cost drops by the refund, as it is
      marked returned at `now`. */
  lemma EarlyReturnRefunds(db: Db, borrowId: nat, user: nat, isAdmin: bool, now: int, k: int)
    requires Wf(db) && Designates(db, borrowId, user, isAdmin, k)
    requires !db.borrows[k].returned && db.borrows[k].returnDate.Some?
    requires RefundDays(db.borrows[k].returnDate.value, now) > 0
    ensures var rec := db.borrows[k];
            var d := RefundDays(rec.returnDate.value, now);
            var r := ReturnBook(db, borrowId, user, isAdmin, now);
            && now < rec.returnDate.value
            && r.0 == Returned(d)
            && r.1.refunds == db.refunds + [Refund(db.next.refund, borrowId, CentsPerDay * d, d)]
            && r.1.borrows == db.borrows[k := LessCost(CentsPerDay * d)(rec).(returned := true, actualReturnDate := Some(now))]
  {
    ReturnSteps(db, borrowId, user, isAdmin, now, k);
    var rec := db.borrows[k];
    var d := RefundDays(rec.returnDate.value, now);
    RefundLowersOneCost(db, borrowId, d, k);
    var rows := RecordRefund(db, borrowId, d).borrows;
    UpdateUnique(rows, BorrowKey, BorrowHasId(borrowId), MarkReturned(now), k);
  }

  /** A return on or after the return date, or with less than one whole
      day left, refunds nothing and leaves the cost as it was. */
  lemma LateReturnNoRefund(db: Db, borrowId: nat, user: nat, isAdmin: bool, now: int, k: int)
    requires Wf(db) && Designates(db, borrowId, user, isAdmin, k)
    requires !db.borrows[k].returned && db.borrows[k].returnDate.Some?
    requires now >= db.borrows[k].returnDate.value || RefundDays(db.borrows[k].returnDate.value, now) == 0
    ensures var r := ReturnBook(db, borrowId, user, isAdmin, now);
            && r.0 == Returned(0)
            && r.1.refunds == db.refunds
            && r.1.borrows == db.borrows[k := db.borrows[k].(returned := true, actualReturnDate := Some(now))]
  {
    DesignatedIsFirst(db, borrowId, user, isAdmin, k);
    UpdateUnique(db.borrows, BorrowKey, BorrowHasId(borrowId), MarkReturned(now), k);
  }

  /** A record held by someone else is not found for a non-admin, and
      nothing changes. */
  lemma ForeignRecordNotFound(db: Db, borrowId: nat, user: nat, now: int, k: int)
    requires Wf(db) && 0 <= k < |db.borrows|
    requires db.borrows[k].id == borrowId && db.borrows[k].userId != user
    ensures ReturnBook(db, borrowId, user, false, now) == (NotFound, db)
  {
  }

  /** Returning a dated record not yet returned succeeds; the record is
      marked returned and keeps its id, owner and book. */
  lemma ReturnMarksRecord(db: Db, borrowId: nat, user: nat, isAdmin: bool, now: int, k: int)
    requires Wf(db) && Designates(db, borrowId, user, isAdmin, k)
    requires !db.borrows[k].returned && db.borrows[k].returnDate.Some?
    ensures var db1 := ReturnBook(db, borrowId, user, isAdmin, now).1;
            && ReturnBook(db, borrowId, user, isAdmin, now).0.Returned?
            && |db1.borrows| == |db.borrows|
            && db1.borrows[k].returned
            && db1.borrows[k].id == db.borrows[k].id
            && db1.borrows[k].userId == db.borrows[k].userId
            && db1.borrows[k].bookId == db.borrows[k].bookId
  {
    DesignatedIsFirst(db, borrowId, user, isAdmin, k);
    var rec := db.borrows[k];
    if RefundDays(rec.returnDate.value, now) > 0 {
      EarlyReturnRefunds(db, borrowId, user, isAdmin, now, k);
    } else {
      LateReturnNoRefund(db, borrowId, user, isAdmin, now, k);
    }
  }

  /** Returning twice: the second return reports "already returned" and
      adds no refund and no change of cost. */
  lemma ReturnTwice(db: Db, borrowId: nat, user: nat, isAdmin: bool, now: int, now2: int, k: int)
    requires Wf(db) && Designates(db, borrowId, user, isAdmin, k)
    requires !db.borrows[k].returned && db.borrows[k].returnDate.Some?
    ensures var db1 := ReturnBook(db, borrowId, user, isAdmin, now).1;
            ReturnBook(db1, borrowId, user, isAdmin, now2) == (AlreadyReturned, db1)
  {
    var db1 := ReturnBook(db, borrowId, user, isAdmin, now).1;
    ReturnMarksRecord(db, borrowId, user, isAdmin, now, k);
    ReturnPreservesWf(db, borrowId, user, isAdmin, now);
    assert Designates(db1, borrowId, user, isAdmin, k);
    DesignatedIsFirst(db1, borrowId, user, isAdmin, k);
  }

  /** For a record the timed borrow created, returned no earlier than it
      was borrowed, the refunded days never exceed the days paid for, so
      the remaining cost stays non-negative. */
  lemma RefundWithinCost(rec: Borrow, now: int)
    requires rec.daysBorrowed.Some? && rec.daysBorrowed.value >= 0
    requires rec.returnDate == Some(rec.borrowDate + rec.daysBorrowed.value * SecondsPerDay)
    requires rec.borrowDate <= now
    ensures RefundDays(rec.returnDate.value, now) <= rec.daysBorrowed.value
    ensures CentsPerDay * rec.daysBorrowed.value - CentsPerDay * RefundDays(rec.returnDate.value, now) >= 0
  {
  }

  lemma ReturnPreservesWf(db: Db, borrowId: nat, user: nat, isAdmin: bool, now: int)
    requires Wf(db)
    ensures Wf(ReturnBook(db, borrowId, user, isAdmin, now).1)
  {
    var k := FirstMatch(db.borrows, ReturnSel(db, borrowId, user, isAdmin));
    if k != -1 && !db.borrows[k].returned && db.borrows[k].returnDate.Some? {
      ReturnSteps(db, borrowId, user, isAdmin, now, k);
      var d := RefundDays(db.borrows[k].returnDate.value, now);
      var db1 := RecordRefund(db, borrowId, d);
      if d > 0 {
        RefundLowersOneCost(db, borrowId, d, k);
        InsertKeyed(db.refunds, RefundKey, db.next.refund, Refund(db.next.refund, borrowId, CentsPerDay * d, d));
      }
      UpdateKeyed(db1.borrows, BorrowKey, db.next.borrow, BorrowHasId(borrowId), MarkReturned(now));
    }
  }

  /** A timed borrow returned no earlier than it was taken keeps a
      non-negative cost, whatever refund the return grants. */
  lemma BorrowThenReturnCostNonNegative(db: Db, user: nat, book: nat, days: int, now: int, now2: int)
    requires Wf(db) && FindBook(db, book).Some? && now <= now2
    requires BorrowBook(db, user, book, days, now).0.Borrowed?
    ensures var db1 := BorrowBook(db, user, book, days, now).1;
            var db2 := ReturnBook(db1, db.next.borrow, user, false, now2).1;
            && |db2.borrows| == |db1.borrows|
            && db2.borrows[|db.borrows|].totalCost.Some?
            && db2.borrows[|db.borrows|].totalCost.value >= 0
  {
    var db1 := BorrowBook(db, user, book, days, now).1;
    BorrowPreservesWf(db, user, book, days, now);
    var k := |db.borrows|;
    var rec := db1.borrows[k];
    assert Designates(db1, db.next.borrow, user, false, k);
    RefundWithinCost(rec, now2);
    if RefundDays(rec.returnDate.value, now2) > 0 {
      EarlyReturnRefunds(db1, db.next.borrow, user, false, now2, k);
    } else {
      LateReturnNoRefund(db1, db.next.borrow, user, false, now2, k);
    }
  }
}

=== FILE: payments.dfy ===
/** Payment-form validation shared by the cart payment (`process_payment`)
    and the direct payment (`process_direct_payment`). A form field that is
    absent or empty is the empty string: Python's `not value` holds of both. */
module Payments {
  import opened Wrappers
  import opened Schema

  datatype PaymentForm = PaymentForm(methodName: string, cardNumber: string, alipayPhone: string, wepayPhone: string)

  datatype PaymentCheck =
    | NoMethod
    | UnknownMethod
    /** The field the chosen method needs (card number or phone) is empty. */
    | MissingDetails
    | Valid(paymentMethod: PaymentMethod, details: string)

  /** The form value that selects each method. */
  function MethodName(m: PaymentMethod): string {
    match m
    case Card => "card"
    case Alipay => "alipay"
    case WePay => "wepay"
  }

  /** The closed set of methods, read from the form value. */
  function ParseMethod(s: string): (r: Option<PaymentMethod>)
    ensures r.Some? ==> MethodName(r.value) == s
  {
    if s == "card" then Some(Card)
    else if s == "alipay" then Some(Alipay)
    else if s == "wepay" then Some(WePay)
    else None
  }

  /** Every method is read back from its own form value, and only from it. */
  lemma ParseMethodName(m: PaymentMethod, s: string)
    ensures ParseMethod(MethodName(m)) == Some(m)
    ensures ParseMethod(s) == Some(m) <==> s == MethodName(m)
  {
  }

  /** The form field a method requires. */
  function RequiredField(form: PaymentForm, m: PaymentMethod): string {
    match m
    case Card => form.cardNumber
    case Alipay => form.alipayPhone
    case WePay => form.wepayPhone
  }

  function CheckPayment(form: PaymentForm): (r: PaymentCheck)
    ensures r.NoMethod? <==> form.methodName == ""
    ensures r.UnknownMethod? <==> form.methodName != "" && ParseMethod(form.methodName).None?
    ensures r.Valid? <==> ParseMethod(form.methodName).Some? && RequiredField(form, ParseMethod(form.methodName).value) != ""
    ensures r.Valid? ==>
              && MethodName(r.paymentMethod) == form.methodName
              && r.details == RequiredField(form, r.paymentMethod)
              && r.details != ""
  {
    if form.methodName == "" then NoMethod
    else
      match ParseMethod(form.methodName)
      case None => UnknownMethod
      case Some(m) =>
        if RequiredField(form, m) == "" then MissingDetails else Valid(m, RequiredField(form, m))
  }
}

=== FILE: purchasing.dfy ===
/** The one-time purchase of app.py (`buy_book_route`): unlimited copies,
    one purchase per user and book, the price copied at purchase time. */
module Purchasing {
  import opened Wrappers
  import opened Tables
  import opened Schema

  datatype BuyOutcome = Bought(record: Purchase) | BookNotFound | AlreadyPurchased

  predicate HasPurchased(db: Db, user: nat, book: nat) {
    exists i :: 0 <= i < |db.purchases| && db.purchases[i].userId == user && db.purchases[i].bookId == book
  }

  /** `POST /buy/<book_id>`. A book with a NULL price is still bought:
      the purchase is committed with no price before the success message
      fails to format it, so the stored state is that of `Bought`. */
  function BuyBook(db: Db, user: nat, book: nat, now: int): (r: (BuyOutcome, Db))
    ensures FindBook(db, book).None? ==> r == (BookNotFound, db)
    ensures FindBook(db, book).Some? && HasPurchased(db, user, book) ==> r == (AlreadyPurchased, db)
    ensures r.0.Bought? <==> FindBook(db, book).Some? && !HasPurchased(db, user, book)
    ensures r.0.Bought? ==>
      var rec := r.0.record;
      && r.1 == db.(purchases := db.purchases + [rec], next := db.next.(purchase := db.next.purchase + 1))
      && rec.id == db.next.purchase && rec.userId == user && rec.bookId == book && rec.purchaseDate == now
      && exists i :: 0 <= i < |db.books| && db.books[i].id == book && rec.price == db.books[i].price
  {
    match FindBook(db, book)
    case None => (BookNotFound, db)
    case Some(b) =>
      if HasPurchased(db, user, book) then (AlreadyPurchased, db)
      else
        var rec := Purchase(db.next.purchase, user, book, now, b.price);
        (Bought(rec), db.(purchases := db.purchases + [rec], next := db.next.(purchase := db.next.purchase + 1)))
  }

  /** Buying the same book twice: the second purchase is refused and adds
      no record. */
  lemma BuyTwice(db: Db, user: nat, book: nat, now: int, now2: int)
    requires BuyBook(db, user, book, now).0.Bought?
    ensures var db1 := BuyBook(db, user, book, now).1;
            BuyBook(db1, user, book, now2) == (AlreadyPurchased, db1)
  {
    var db1 := BuyBook(db, user, book, now).1;
    assert db1.purchases[|db1.purchases| - 1].userId == user;
    assert HasPurchased(db1, user, book);
  }

  lemma BuyPreservesWf(db: Db, user: nat, book: nat, now: int)
    requires Wf(db)
    ensures Wf(BuyBook(db, user, book, now).1)
  {
    var r := BuyBook(db, user, book, now);
    if r.0.Bought? {
      InsertKeyed(db.purchases, PurchaseKey, db.next.purchase, r.0.record);
    }
  }
}

=== FILE: schema.dfy ===
/** The app.py database: one datatype per table row, the whole database as
    a value, and its integrity invariant (primary keys, one cart row per
    user and book, positive cart quantities).

    Money is in integer cents and time in integer seconds since an
    arbitrary epoch; a nullable column is an `Option`. */
module Schema {
  import opened Wrappers
  import opened Tables

  const SecondsPerDay: int := 86400

  /** The borrowing fee, $2.00 per day. */
  const CentsPerDay: nat := 200

  /** Where a catalog row came from. */
  datatype Source = OpenLibrary | Gutenberg | AdminEntered

  /** A password as stored: a hash of the secret, never inspected. */
  datatype PasswordHash = Sha256Of(secret: string)

  /** The three accepted payment methods. */
  datatype PaymentMethod = Card | Alipay | WePay

  datatype OrderType = PurchaseOrder | BorrowOrder

  datatype AdminAction = ToggleUserStatus

  datatype Book = Book(
    id: nat,
    title: string,
    authors: string,
    description: string,
    coverImage: Option<string>,
    previewLink: Option<string>,
    price: Option<nat>,
    source: Source)

  datatype User = User(
    id: nat,
    username: string,
    email: string,
    password: PasswordHash,
    isAdmin: bool,
    isActive: bool)

  /** A row of `borrowed_books`. The timed borrow fills `returnDate`,
      `daysBorrowed` and `totalCost`; the direct borrow fills `dueDate`
      and `orderId` instead. */
  datatype Borrow = Borrow(
    id: nat,
    userId: nat,
    bookId: nat,
    borrowDate: int,
    returnDate: Option<int>,
    dueDate: Option<int>,
    daysBorrowed: Option<int>,
    totalCost: Option<int>,
    returned: bool,
    actualReturnDate: Option<int>,
    orderId: Option<nat>)

  datatype Purchase = Purchase(id: nat, userId: nat, bookId: nat, purchaseDate: int, price: Option<nat>)

  datatype CartItem = CartItem(id: nat, userId: nat, bookId: nat, quantity: int)

  /** A row of `orders`; `orderType` is `None` where the insert leaves the
      column to its schema default. */
  datatype Order = Order(
    id: nat,
    userId: nat,
    totalAmount: int,
    paymentMethod: PaymentMethod,
    details: string,
    orderType: Option<OrderType>,
    orderDate: int)

  datatype OrderItem = OrderItem(id: nat, orderId: nat, bookId: nat, quantity: int, price: nat)

  /** A row of `refunds`; `days` is the day count its reason text names. */
  datatype Refund = Refund(id: nat, borrowId: nat, amount: int, days: int)

  datatype AdminLog = AdminLog(id: nat, adminId: nat, action: AdminAction, targetId: nat, details: string)

  /** The next AUTO_INCREMENT value of each table. */
  datatype Counters = Counters(
    book: nat, user: nat, borrow: nat, purchase: nat, cart: nat,
    order: nat, orderItem: nat, refund: nat, log: nat)

  datatype Db = Db(
    books: seq<Book>,
    users: seq<User>,
    borrows: seq<Borrow>,
    purchases: seq<Purchase>,
    cart: seq<CartItem>,
    orders: seq<Order>,
    orderItems: seq<OrderItem>,
    refunds: seq<Refund>,
    logs: seq<AdminLog>,
    next: Counters)

  function BookKey(b: Book): nat { b.id }
  function UserKey(u: User): nat { u.id }
  function BorrowKey(b: Borrow): nat { b.id }
  function PurchaseKey(p: Purchase): nat { p.id }
  function CartKey(c: CartItem): nat { c.id }
  function OrderKey(o: Order): nat { o.id }
  function OrderItemKey(o: OrderItem): nat { o.id }
  function RefundKey(r: Refund): nat { r.id }
  function LogKey(l: AdminLog): nat { l.id }

  /** At most one cart row per (user, book) pair. */
  predicate CartUnique(cart: seq<CartItem>) {
    forall i, j :: 0 <= i < j < |cart| ==>
      !(cart[i].userId == cart[j].userId && cart[i].bookId == cart[j].bookId)
  }

  predicate CartPositive(cart: seq<CartItem>) {
    forall i :: 0 <= i < |cart| ==> cart[i].quantity >= 1
  }

  /** The integrity invariant every operation preserves. */
  predicate Wf(db: Db) {
    && Keyed(db.books, BookKey, db.next.book)
    && Keyed(db.users, UserKey, db.next.user)
    && Keyed(db.borrows, BorrowKey, db.next.borrow)
    && Keyed(db.purchases, PurchaseKey, db.next.purchase)
    && Keyed(db.cart, CartKey, db.next.cart)
    && Keyed(db.orders, OrderKey, db.next.order)
    && Keyed(db.orderItems, OrderItemKey, db.next.orderItem)
    && Keyed(db.refunds, RefundKey, db.next.refund)
    && Keyed(db.logs, LogKey, db.next.log)
    && CartUnique(db.cart)
    && CartPositive(db.cart)
  }

  function BookHasId(id: nat): Book -> bool {
    (b: Book) => b.id == id
  }

  /** `SELECT ... FROM books WHERE id = %s` followed by `fetchone()`. */
  function FindBook(db: Db, id: nat): (r: Option<Book>)
    ensures r.Some? <==> exists i :: 0 <= i < |db.books| && db.books[i].id == id
    ensures r.Some? ==> r.value in db.books && r.value.id == id
  {
    var k := FirstMatch(db.books, BookHasId(id));
    if k == -1 then None else Some(db.books[k])
  }

  /** The empty database. */
  function EmptyDb(): (db: Db)
    ensures Wf(db)
  {
    Db([], [], [], [], [], [], [], [], [], Counters(1, 1, 1, 1, 1, 1, 1, 1, 1))
  }
}

=== FILE: strings.dfy ===
/** The few string operations the ledger needs: `str.join`, ASCII
    `str.lower`, the last occurrence of a character, and decimal rendering
    of a natural number. */
module Strings {

  /** `sep.join(parts)`. */
  function Join(parts: seq<string>, sep: string): (r: string)
    ensures parts == [] ==> r == ""
    ensures |parts| == 1 ==> r == parts[0]
  {
    if parts == [] then ""
    else if |parts| == 1 then parts[0]
    else parts[0] + sep + Join(parts[1..], sep)
  }

  /** Lower-cases one ASCII letter; every other character is kept. */
  function LowerChar(c: char): (r: char)
    ensures 'A' <= c <= 'Z' ==> r as int == c as int + 32
    ensures !('A' <= c <= 'Z') ==> r == c
  {
    if 'A' <= c <= 'Z' then (c as int + 32) as char else c
  }

  function Lower(s: string): (r: string)
    ensures |r| == |s|
    ensures forall i :: 0 <= i < |s| ==> r[i] == LowerChar(s[i])
  {
    if s == [] then [] else [LowerChar(s[0])] + Lower(s[1..])
  }

  /** Index of the last `c` in `s`, or -1 when `s` has none. */
  function LastIndexOf(s: string, c: char): (r: int)
    ensures r == -1 <==> c !in s
    ensures r != -1 ==> 0 <= r < |s| && s[r] == c && c !in s[r + 1..]
  {
    if s == [] then -1
    else if s[|s| - 1] == c then |s| - 1
    else
      assert s == s[..|s| - 1] + [s[|s| - 1]];
      LastIndexOf(s[..|s| - 1], c)
  }

  /** A position holding `c` with no `c` after it is the last one. */
  lemma LastIndexOfUnique(s: string, c: char, i: int)
    requires 0 <= i < |s| && s[i] == c && c !in s[i + 1..]
    ensures LastIndexOf(s, c) == i
  {
  }

  function DigitChar(d: nat): (r: char)
    requires d < 10
    ensures '0' <= r <= '9'
  {
    ('0' as int + d) as char
  }

  /** Decimal rendering of `n`, as Python's `str(n)` for a non-negative int. */
  function NatToString(n: nat): (r: string)
    ensures |r| >= 1
    ensures forall i :: 0 <= i < |r| ==> '0' <= r[i] <= '9'
  {
    if n < 10 then [DigitChar(n)]
    else NatToString(n / 10) + [DigitChar(n % 10)]
  }
}

=== FILE: tables.dfy ===
/** Tables as sequences of rows, and the three SQL statements the ledger
    uses on them: INSERT (append), DELETE ... WHERE and UPDATE ... WHERE.
    Rows are identified by an AUTO_INCREMENT key. */
module Tables {

  /** Every key is below the table's next AUTO_INCREMENT value. */
  predicate KeysBelow<T>(rows: seq<T>, key: T -> nat, next: nat) {
    forall i :: 0 <= i < |rows| ==> key(rows[i]) < next
  }

  /** No two rows share a key. */
  predicate KeysUnique<T>(rows: seq<T>, key: T -> nat) {
    forall i, j :: 0 <= i < j < |rows| ==> key(rows[i]) != key(rows[j])
  }

  predicate Keyed<T>(rows: seq<T>, key: T -> nat, next: nat) {
    KeysBelow(rows, key, next) && KeysUnique(rows, key)
  }

  /** `DELETE FROM t WHERE sel`: the rows that do not match, in order. */
  function Delete<T>(rows: seq<T>, sel: T -> bool): (r: seq<T>)
    ensures |r| <= |rows|
    ensures forall i :: 0 <= i < |r| ==> r[i] in rows && !sel(r[i])
    ensures forall i :: 0 <= i < |rows| && !sel(rows[i]) ==> rows[i] in r
  {
    if rows == [] then []
    else if sel(rows[0]) then Delete(rows[1..], sel)
    else [rows[0]] + Delete(rows[1..], sel)
  }

  /** `UPDATE t SET ... WHERE sel`: every matching row is rewritten by `f`,
      every other row is kept, and the order is preserved. */
  function Update<T>(rows: seq<T>, sel: T -> bool, f: T -> T): (r: seq<T>)
    ensures |r| == |rows|
    ensures forall i :: 0 <= i < |rows| ==> r[i] == (if sel(rows[i]) then f(rows[i]) else rows[i])
  {
    if rows == [] then []
    else [if sel(rows[0]) then f(rows[0]) else rows[0]] + Update(rows[1..], sel, f)
  }

  /** True when some row matches (`SELECT ... WHERE sel` returns a row). */
  predicate Exists<T>(rows: seq<T>, sel: T -> bool) {
    exists i :: 0 <= i < |rows| && sel(rows[i])
  }

  /** `fetchone()` of `SELECT ... WHERE sel`: the index of the first match. */
  function FirstMatch<T>(rows: seq<T>, sel: T -> bool): (r: int)
    ensures r == -1 <==> !Exists(rows, sel)
    ensures r != -1 ==> 0 <= r < |rows| && sel(rows[r])
    ensures r != -1 ==> forall i :: 0 <= i < r ==> !sel(rows[i])
  {
    if rows == [] then -1
    else if sel(rows[0]) then 0
    else
      var k := FirstMatch(rows[1..], sel);
      if k == -1 then -1 else k + 1
  }

  /** Inserting a row that carries the next key keeps the table keyed. */
  lemma InsertKeyed<T>(rows: seq<T>, key: T -> nat, next: nat, x: T)
    requires Keyed(rows, key, next)
    requires key(x) == next
    ensures Keyed(rows + [x], key, next + 1)
  {
  }

  /** Deleting rows keeps the table keyed. */
  lemma {:induction false} DeleteKeyed<T>(rows: seq<T>, key: T -> nat, next: nat, sel: T -> bool)
    requires Keyed(rows, key, next)
    ensures Keyed(Delete(rows, sel), key, next)
  {
    if rows != [] {
      DeleteKeyed(rows[1..], key, next, sel);
      var tail := Delete(rows[1..], sel);
      forall x | x in tail ensures key(x) != key(rows[0]) {
        var j :| 0 <= j < |rows[1..]| && rows[1..][j] == x;
        assert rows[j + 1] == x;
      }
    }
  }

  /** An update that does not rewrite keys keeps the table keyed. */
  lemma UpdateKeyed<T>(rows: seq<T>, key: T -> nat, next: nat, sel: T -> bool, f: T -> T)
    requires Keyed(rows, key, next)
    requires forall x :: key(f(x)) == key(x)
    ensures Keyed(Update(rows, sel, f), key, next)
  {
    var r := Update(rows, sel, f);
    forall i | 0 <= i < |r| ensures key(r[i]) == key(rows[i]) {
    }
  }

  /** Under unique keys, an update selecting one key rewrites exactly the
      row holding it. */
  lemma UpdateUnique<T>(rows: seq<T>, key: T -> nat, sel: T -> bool, f: T -> T, k: int)
    requires KeysUnique(rows, key)
    requires 0 <= k < |rows|
    requires forall i :: 0 <= i < |rows| ==> (sel(rows[i]) <==> key(rows[i]) == key(rows[k]))
    ensures Update(rows, sel, f) == rows[k := f(rows[k])]
  {
    var r := Update(rows, sel, f);
    forall i | 0 <= i < |rows| ensures r[i] == rows[k := f(rows[k])][i] {
      if i != k {
        assert key(rows[i]) != key(rows[k]);
      }
    }
  }

  /** A DELETE whose condition matches no row leaves the table as it was. */
  lemma {:induction false} DeleteNone<T>(rows: seq<T>, sel: T -> bool)
    requires !Exists(rows, sel)
    ensures Delete(rows, sel) == rows
  {
    if rows != [] {
      assert !Exists(rows[1..], sel) by {
        forall i | 0 <= i < |rows[1..]| ensures !sel(rows[1..][i]) {
          assert rows[1..][i] == rows[i + 1];
        }
      }
      DeleteNone(rows[1..], sel);
    }
  }

  /** Inserting rows that carry consecutive keys from `next` on keeps the
      table keyed. */
  lemma InsertManyKeyed<T>(rows: seq<T>, key: T -> nat, next: nat, xs: seq<T>)
    requires Keyed(rows, key, next)
    requires forall i :: 0 <= i < |xs| ==> key(xs[i]) == next + i
    ensures Keyed(rows + xs, key, next + |xs|)
  {
    var r := rows + xs;
    forall i, j | 0 <= i < j < |r| ensures key(r[i]) != key(r[j]) {
      if j >= |rows| {
        assert key(r[j]) == next + (j - |rows|);
        if i >= |rows| {
          assert key(r[i]) == next + (i - |rows|);
        }
      }
    }
  }
}

=== FILE: uploads.dfy ===
/** `allowed_file`: the cover-image filename filter. */
module Uploads {
  import opened Strings

  /** The accepted cover-image extensions, already lower-cased. */
  predicate ImageExtension(ext: string) {
    ext == "jpg" || ext == "jpeg" || ext == "png"
  }

  /** A name is accepted when it has a dot and the part after its last
      dot, lower-cased, is an image extension. Python's `lower()` is
      Unicode-wide, but the only characters whose lower case is a letter
      of the three extensions are the ASCII capitals, so ASCII
      lower-casing decides the same answer. */
  function AllowedFile(f: string): (r: bool)
    ensures r <==> exists i :: 0 <= i < |f| && f[i] == '.' && '.' !in f[i + 1..]
                                && ImageExtension(Lower(f[i + 1..]))
  {
    var k := LastIndexOf(f, '.');
    if k == -1 then false
    else
      LastDotIsUnique(f, k);
      ImageExtension(Lower(f[k + 1..]))
  }

  /** Any dot with no dot after it is the last dot. */
  lemma LastDotIsUnique(f: string, k: int)
    requires k == LastIndexOf(f, '.') && k != -1
    ensures forall i :: 0 <= i < |f| && f[i] == '.' && '.' !in f[i + 1..] ==> i == k
  {
    forall i | 0 <= i < |f| && f[i] == '.' && '.' !in f[i + 1..] ensures i == k {
      LastIndexOfUnique(f, '.', i);
    }
  }

  /** rsplit splits at the LAST dot: a name with an earlier dot is decided
      by its final extension alone, in any letter case. */
  lemma {:induction false} AllowedFileByExtension(stem: string, ext: string)
    requires '.' !in ext
    ensures AllowedFile(stem + "." + ext) <==> ImageExtension(Lower(ext))
  {
    var f := stem + "." + ext;
    assert f[|stem|] == '.';
    assert f[|stem| + 1..] == ext;
    LastIndexOfUnique(f, '.', |stem|);
  }

  /** A name without any dot is refused. */
  lemma NoDotRefused(f: string)
    requires '.' !in f
    ensures !AllowedFile(f)
  {
  }

  /** Lower-casing of an upper-case extension. */
  lemma LowerJpg()
    ensures Lower("JPG") == "jpg"
  {
    assert LowerChar('J') == 'j';
    assert LowerChar('P') == 'p';
    assert LowerChar('G') == 'g';
  }

  /** An upper-case extension is accepted, whatever the stem. */
  lemma UpperCaseExtensionAccepted(stem: string)
    ensures AllowedFile(stem + "." + "JPG")
  {
    LowerJpg();
    AllowedFileByExtension(stem, "JPG");
  }

  /** Any other extension is refused, whatever the stem. */
  lemma OtherExtensionRefused(stem: string)
    ensures !AllowedFile(stem + "." + "gif")
  {
    assert Lower("gif") == "gif";
    AllowedFileByExtension(stem, "gif");
  }
}

=== FILE: wrappers.dfy ===
/** Optional values, standing for nullable columns, absent form fields and
    missing dictionary keys. */
module Wrappers {

  datatype Option<+T> = None | Some(value: T) {

    /** The value, or `default` when absent (Python's `d.get(k, default)`). */
    function GetOr(default: T): T {
      match this
      case Some(v) => v
      case None => default
    }
  }
}
